=== FILE: README.md ===
# Display Core commit sequencing and the DCE 8.0 stream encoder, in Dafny

This project models two parts of the AMD display driver, plus two small helpers:

- **`dc.c` (Display Core).** How a set of display targets is committed:
  - validate the new context, program the hardware, then swap the context in;
  - timing-synchronisation groups;
  - committing and updating the surfaces of one target, with the display-clock raise/lower discipline around plane programming;
  - power-state changes;
  - link creation and remote-sink bookkeeping;
  - the display requirements handed to the power-play library.
- **`dce80_stream_encoder.c` (DCE 8.0 stream encoder).** How the encoder programs its registers:
  - DP, HDMI and DVI stream attributes;
  - generic and HDMI info packets, and the DP secondary-stream enables;
  - DP blank and unblank with their status polls and M/N programming;
  - the MST time-slot rate.
- **`fence_is_later`** from the kernel-compat fence header.
- **The `dc_status` codes.**

The model is purely functional.

- The device is a datatype.
- Every `dc` entry point returns its result, the new device, and the sequence of hardware-sequencer calls it made (`HwEvents.Event`).
- Collaborators whose code is elsewhere are function-typed values:
  - the resource pool's validation, attach, bandwidth and clock routines, the hardware sequencer's `apply_ctx_to_hw`, and the "timings synchronizable" test are fields of `Dc.Hw`; the BIOS's accelerated-mode answer is its field `isAcceleratedMode`;
  - the link factory and the virtual-link allocation are parameters of `Links.CreateLinks` and `Dc.Create`;
  - the sink allocation and the EDID parser are parameters of `Links.AddRemoteSink`;
  - the BIOS `encoder_control` service is the field `encoderControl` of `StreamAttributes.StreamEncoder`.
- The encoder's register file is the datatype `EncoderRegs.Regs`.
  - It holds only the fields the encoder reads or writes.
  - Each encoder operation returns the new register file and the list of accesses it made, in order.
  - Each write in that list carries the register file just after the write, so every ordering claim ("N before M", "FIFO reset after the poll") is a statement about that list.
- Status registers the encoder polls are functions from the read number to the status bit.

Modules:

| module | file | models |
|---|---|---|
| `CoreStatus` | status.dfy | `enum dc_status` |
| `KclFence` | fence.dfy | `fence_is_later` |
| `DcTypes`, `HwEvents` | types.dfy, events.dfy | targets, streams, pipe slots, validation contexts; sequencer calls |
| `DisplayConfig` | display_config.dfy | `fill_display_configs`, `get_min_vblank_time_us`, `pplib_apply_display_requirements` |
| `TimingSync` | timing_sync.dfy | `program_timing_sync` |
| `Links` | links.dfy | `create_links`, the remote-sink functions, `dc_link_set_sink` |
| `Dc` | commit.dfy | `dc_create`, `dc_commit_targets`, `dc_commit_surfaces_to_target`, `dc_update_surfaces_for_target`, `dc_set_power_state`, target queries |
| `EncoderRegs` | encoder_regs.dfy | the encoder's register file and access log |
| `InfoPackets` | encoder_packets.dfy | info-packet programming, HDMI and DP |
| `StreamAttributes` | encoder_attributes.dfy | DP/HDMI/DVI stream attributes, `dce80_stream_encoder_construct` |
| `DpStream` | encoder_dp.dfy | `dp_blank`, `dp_unblank`, `set_mst_bandwidth` |

## Model

All `dc.c` paths are under `amd/dal/dc/core/` and all encoder paths under `amd/dal/dc/dce80/`.

| member | source | states |
|---|---|---|
| CoreStatus.FromCode | amd/dal/dc/inc/core_status.h:29-44 | a code decodes to a status exactly when it is -1 or 1..11 |
| CoreStatus.CodeRoundTrip | amd/dal/dc/inc/core_status.h:29-44 | every status's code decodes back to it; `DC_OK` is the only status with code 1 and `DC_ERROR_UNEXPECTED` the only one with code -1 |
| CoreStatus.FromCodeRoundTrip | amd/dal/dc/inc/core_status.h:29-44 | every decodable code re-encodes to itself, so the codes are a bijection onto {-1, 1..11} |
| CoreStatus.EveryCodeIsTrue | amd/dal/dc/inc/core_status.h:29-44 | every status, `DC_OK` included, is nonzero and therefore true when returned as a C `bool` |
| KclFence.IsLater | amd/backport/include/kcl/kcl_fence.h:16-22 | fences on different timelines are never ordered |
| KclFence.IsLaterIffForwardDistance | amd/backport/include/kcl/kcl_fence.h:16-22 | on one timeline f1 is later than f2 exactly when (f1.seqno - f2.seqno) mod 2^32 lies in [1, 2^31 - 1] |
| KclFence.NotLaterThanItself | amd/backport/include/kcl/kcl_fence.h:16-22 | a fence is not later than itself |
| KclFence.WrapAround | amd/backport/include/kcl/kcl_fence.h:16-22 | seqno 0 is later than 0xFFFFFFFF on the same timeline, not the reverse |
| KclFence.Asymmetric | amd/backport/include/kcl/kcl_fence.h:16-22 | no two fences are each later than the other |
| KclFence.HalfwayIsUnordered | amd/backport/include/kcl/kcl_fence.h:16-22 | at distance exactly 2^31 neither fence is later |
| DisplayConfig.MinOverStreams | amd/dal/dc/core/dc.c:719-732 | the running minimum is at most the start value and at most every stream's vblank time, and is one of them |
| DisplayConfig.MinOverTargets | amd/dal/dc/core/dc.c:714-733 | the minimum over all targets' streams bounds every stream's vblank time and is attained (or is the start value) |
| DisplayConfig.MinVBlankTimeUs | amd/dal/dc/core/dc.c:711-735 | the result is a lower bound on every admitted stream's vblank time and is attained, or is 0xFFFFFFFF when there is no stream |
| DisplayConfig.VRefreshIsRounded | amd/dal/dc/core/dc.c:701-705 | the refresh rate is the line rate divided by `v_total`, rounded to the nearest integer |
| DisplayConfig.DispConfigOf | amd/dal/dc/core/dc.c:677-705 | a stream's entry names the stream, has the rounded refresh rate, and names the first pipe bound to the stream, or none when no pipe is |
| DisplayConfig.FillDisplayConfigs | amd/dal/dc/core/dc.c:662-709 | one entry per admitted stream, target by target, in order |
| DisplayConfig.DisplayRequirements | amd/dal/dc/core/dc.c:737-780 | the in-sync flag and display clock come from the bandwidth results; the m-clock switch time is the minimum vblank time (so at most every stream's); the per-display entries are those `fill_display_configs` builds, one per stream; the single-display fields are written only when there is one display |
| TimingSync.CollectGroup | amd/dal/dc/core/dc.c:559-583 | the group led by slot i is i plus every later unsynced slot synchronizable with i; exactly these leave the unsynced set |
| TimingSync.SyncEventsNumbered | amd/dal/dc/core/dc.c:585-589 | one synchronisation call per group of two or more, with group indices numbered 0, 1, 2, ... in order |
| TimingSync.AppendGroup | amd/dal/dc/core/dc.c:559-590 | adding the group of the lowest uncovered bound slot keeps the partition invariant |
| TimingSync.ProgramTimingSync | amd/dal/dc/core/dc.c:543-591 | the groups partition the bound slots below the pipe count; each is led by its lowest slot, holds only slots synchronizable with the leader, and is maximal; the calls made are exactly one per group of two or more |
| Links.CreateLinks | amd/dal/dc/core/dc.c:73-164 | more than `ENUM_ID_COUNT` connectors fails with no links; otherwise one physical link per connector the factory accepts, in connector order, then one virtual link per requested virtual link; it fails exactly when a virtual-link allocation fails |
| Links.AddRemoteSinkHelper | amd/dal/dc/core/dc.c:1289-1304 | appends exactly when the array has room; a full link is unchanged; never exceeds `MAX_SINKS_PER_LINK` |
| Links.AddRemoteSink | amd/dal/dc/core/dc.c:1306-1358 | a sink is returned exactly when the EDID fits, the init data names a link, the sink is allocated, the helper has room and the EDID parses; then it is the link's last remote sink; on a parse failure the appended sink is removed again |
| Links.RemoveRemoteSink | amd/dal/dc/core/dc.c:1374-1400 | removes the first sink with the same identity and keeps the order of the rest; a missing sink leaves the link unchanged |
| Links.AppendThenRemove | amd/dal/dc/core/dc.c:1374-1400 | removing a freshly appended sink restores the link |
| Links.AddThenRemoveRestores | amd/dal/dc/core/dc.c:1306-1358 | a successful add followed by removing the sink it returned gives back the original link |
| Links.SetSink | amd/dal/dc/core/dc.c:1360-1372 | sets the local sink; the connection type is "none" exactly when there is no sink and "single" otherwise; nothing else changes |
| Dc.Caps | amd/dal/dc/core/dc.c:449-453 | `max_targets` is the smaller of the pipe count and the stream-encoder count; the link and audio counts are published |
| Dc.Create | amd/dal/dc/core/dc.c:431-469 | a device exists exactly when link creation succeeds; it starts zeroed, with links indexed in order, after one `init_hw` |
| Dc.TargetsChanged | amd/dal/dc/core/dc.c:593-609 | reports a change exactly when the count or some target's identity differs |
| Dc.SetBlankForStreams | amd/dal/dc/core/dc.c:611-654 | blanks or unblanks exactly the slots below the pipe count that drive one of the target's streams, split children excluded when asked |
| Dc.EnableMemoryRequests | amd/dal/dc/core/dc.c:846-852 | unblanks exactly the slots of the REPLACED context driven by a new target that has surfaces |
| Dc.SetupEvents | amd/dal/dc/core/dc.c:834-841 | the safe power state is applied first and the context last; accelerated mode is enabled exactly when the BIOS says it is not on |
| Dc.CommitTargets | amd/dal/dc/core/dc.c:782-877 | an unchanged target list returns true and does nothing; a rejected list fails and changes nothing; otherwise the new context is installed whether or not `apply_ctx_to_hw` succeeds, the result is that call's success, and the calls made follow the validate, apply, synchronise, unblank, requirements order |
| Dc.VisibleCount | amd/dal/dc/core/dc.c:925-931 | the count is 0 exactly when no surface is visible and the list length exactly when all are |
| Dc.TargetIndex | amd/dal/dc/core/dc.c:912-917 | the first committed slot holding the target by identity, or none exactly when no slot does |
| Dc.SurfaceContext | amd/dal/dc/core/dc.c:899-985 | a new context exists exactly when something is committed, the target is committed, the BIOS is accelerated, attach and bandwidth validation succeed, and the clock hook (if any) succeeds |
| Dc.ProgramSurfaces | amd/dal/dc/core/dc.c:987-1006 | the calls are the clock raise, the blanking, the surface programming and the clock lowering, in that order, and they keep the clock discipline |
| Dc.ClockOrder | amd/dal/dc/core/dc.c:987-1006 | every display clock set before plane programming is above the old clock and every one after is below it; the clock is set exactly when it changes |
| Dc.CommitSurfacesToTarget | amd/dal/dc/core/dc.c:879-1020 | fails with nothing changed or programmed exactly when no new context can be built; on success installs it, keeps the clock discipline, and blanks first exactly when the target loses all visible surfaces |
| Dc.SurfaceIds | amd/dal/dc/core/dc.c:1071-1072 | the surfaces handed to plane programming, one per surface, in order |
| Dc.UpdateSurfacesForTarget | amd/dal/dc/core/dc.c:1022-1074 | programs planes only when everything is committed, accelerated, and attached; a failing attach still leaves its edits in the committed context |
| Dc.SetPowerState | amd/dal/dc/core/dc.c:1195-1224 | the video power states are recorded; D0 only runs `init_hw`; any other state zeroes the context and ends with the power-down; before it comes exactly the commit of the empty target list (setup, synchronisation over a valid partition, unblanking, requirements) when targets were committed and the empty list validates, and nothing otherwise |
| Dc.CurrentTargetCount | amd/dal/dc/core/dc.c:1076-1080 | the count is exactly the number of indices that `dc_get_target_at_index` answers |
| Dc.GetTargetAtIndex | amd/dal/dc/core/dc.c:1082-1088 | the committed target in slot i, and none exactly when i is past the committed count |
| InfoPackets.PayloadReadBack | amd/dal/dc/dce80/dce80_stream_encoder.c:123-143 | the 28 payload bytes read back unchanged from the seven little-endian words written |
| InfoPackets.LeWordBytes | amd/dal/dc/dce80/dce80_stream_encoder.c:123-143 | each byte packed into a little-endian word is recovered from its position |
| InfoPackets.LoadPayload | amd/dal/dc/dce80/dce80_stream_encoder.c:123-143 | writes the eight generic words in order: words 0..6 pack the payload and word 7 is zero; the packet-index selection stays put throughout |
| InfoPackets.UpdateGenericInfoPacket | amd/dal/dc/dce80/dce80_stream_encoder.c:61-165 | selects the packet index before the header and payload are written and keeps it selected; the header and payload read back; the GENERIC0/GENERIC2 update bits are set for index 0 and 2 only |
| InfoPackets.SlotFor | amd/dal/dc/dce80/dce80_stream_encoder.c:177-195 | a valid packet is sent every frame, continuously, on line 2; an invalid one is off |
| InfoPackets.UpdateHdmiInfoPacket | amd/dal/dc/dce80/dce80_stream_encoder.c:167-270 | loads a valid packet and then sets the slot of the packet index; only that slot changes; an index above 3 reads and writes address 0 |
| InfoPackets.UpdateAvi | amd/dal/dc/dce80/dce80_stream_encoder.c:630-718 | the AVI frame is sent and continued exactly when valid; a valid frame loads payload words 0 to 2, then word 3 with its version field replaced by header byte 1, and uses line 2 |
| EncoderRegs.WithAviVersion | amd/dal/dc/dce80/dce80_stream_encoder.c:658-669 | setting the version field of `AFMT_AVI_INFO3`: the field reads back the version and every other bit of the payload word is kept |
| InfoPackets.UpdateHdmiInfoPackets | amd/dal/dc/dce80/dce80_stream_encoder.c:619-723 | vendor, gamut and SPD occupy slots 0, 1 and 2 as their validity says; a valid vendor or gamut packet is loaded under generic index 0 or 1 by some write of the trace, and a valid SPD packet is what the generic registers hold at the end; slot 3 is untouched; AVI is sent exactly when valid, with payload words 0 to 3 and the version overlaid on word 3; the other HDMI registers and `DIG_START` are unchanged; address 0 is never touched |
| InfoPackets.StopHdmiInfoPackets | amd/dal/dc/dce80/dce80_stream_encoder.c:725-826 | every generic slot and AVI transmission is switched off and nothing else changes |
| InfoPackets.ApplyMasterRule | amd/dal/dc/dce80/dce80_stream_encoder.c:860-865 | the secondary-stream master enable is set when it was set or any other secondary enable is set |
| InfoPackets.UpdateDpInfoPackets | amd/dal/dc/dce80/dce80_stream_encoder.c:827-868 | GSP0 follows VSC validity; a valid VSC packet is loaded at index 0; the master enable covers every enable left set |
| InfoPackets.StopDpInfoPackets | amd/dal/dc/dce80/dce80_stream_encoder.c:870-900 | every secondary-stream enable this encoder owns is cleared; the master stays on exactly when another enable is still set |
| StreamAttributes.BitsPerComponent | amd/dal/dc/dce80/dce80_stream_encoder.c:326-355 | each defined colour depth has an even component width from 6 to 16 |
| StreamAttributes.DpPixelFormatFor | amd/dal/dc/dce80/dce80_stream_encoder.c:283-359 | the DP encoding is 4:2:2, Y-only (4:4:4 with Y_ONLY and not 6 bpc), 4:4:4, or RGB, each exactly for its case; both ranges are zeroed |
| StreamAttributes.DpDepthRoundTrip | amd/dal/dc/dce80/dce80_stream_encoder.c:326-355 | 6, 8, 10 and 12 bpc are announced as themselves and every other depth as 6 bpc |
| StreamAttributes.DpSetStreamAttribute | amd/dal/dc/dce80/dce80_stream_encoder.c:273-363 | one write of `DP_PIXEL_FORMAT`, holding that format, and nothing else changes |
| StreamAttributes.Construct | amd/dal/dc/dce80/dce80_stream_encoder.c:1088-1107 | an encoder exists exactly when the structure and the BIOS are present; it carries the engine id and the BIOS's encoder control |
| StreamAttributes.TmdsPixelEncoding | amd/dal/dc/dce80/dce80_stream_encoder.c:525-532 | the TMDS pixel encoding is 1 exactly for YCbCr 4:2:2 |
| StreamAttributes.HdmiDeepColor | amd/dal/dc/dce80/dce80_stream_encoder.c:403-457 | deep colour is enabled exactly for 10, 12 and 16 bpc; 8 bpc and those depths set their code; other depths keep the old code |
| StreamAttributes.HdmiDepthRoundTrip | amd/dal/dc/dce80/dce80_stream_encoder.c:403-457 | the transmitted width read back from the control fields is the requested depth |
| StreamAttributes.HdmiSetStreamAttribute | amd/dal/dc/dce80/dce80_stream_encoder.c:366-499 | if the BIOS refuses, nothing is written; otherwise the TMDS, HDMI-control, packet and audio-infoframe fields are written in order, and the AV mute is cleared |
| StreamAttributes.DviControlRequest | amd/dal/dc/dce80/dce80_stream_encoder.c:513-519 | four lanes single link, eight dual link, no audio, the timing's pixel clock |
| StreamAttributes.DviColorFormatAsWritten | amd/dal/dc/dce80/dce80_stream_encoder.c:534-552 | the colour format is 0 for every timing: the switch on the pixel encoding reaches its 10-bpc case only for YCbCr 4:4:4, where the RGB test fails |
| StreamAttributes.DviSetStreamAttributeAsWritten | amd/dal/dc/dce80/dce80_stream_encoder.c:502-554 | the result is the BIOS answer; if it refuses, nothing is written; otherwise exactly one `TMDS_CNTL` write, with the pixel encoding and colour format 0, and no other register changes |
| DpStream.PollStatus | amd/dal/dc/dce80/dce80_stream_encoder.c:943-955 | reads until the status clears or the retry limit is hit; every read before the last was busy; stopping early means the last read was clear; no read happens after the first clear one |
| DpStream.DpBlank | amd/dal/dc/dce80/dce80_stream_encoder.c:902-968 | disables the stream, deferred to the next vblank; then polls the status at most 3000 times; only then resets the steering FIFO |
| DpStream.RateCode | amd/dal/dc/dce80/dce80_stream_encoder.c:980-993 | only the unknown link rate has code 0; known rates are 6 to 0x14 times 0.27 Gbps |
| DpStream.MVidRatio | amd/dal/dc/dce80/dce80_stream_encoder.c:984-995 | M is the pixel rate over the link symbol rate, times N = 0x8000, rounded down |
| DpStream.MVidFits | amd/dal/dc/dce80/dce80_stream_encoder.c:988-995 | for a 32-bit pixel clock and a known rate the 64-bit quotient fits in 32 bits, so the cast loses nothing |
| DpStream.ProgramMn | amd/dal/dc/dce80/dce80_stream_encoder.c:998-1019 | measurement is switched off, N then M are written, and measurement is switched back on, in that order |
| DpStream.RestartStream | amd/dal/dc/dce80/dce80_stream_encoder.c:1023-1053 | starts the front end, releases the FIFO reset, and enables the stream, in that order |
| DpStream.DpUnblank | amd/dal/dc/dce80/dce80_stream_encoder.c:971-1054 | a known rate first programs N = 0x8000 and the matching M with measurement off, then switches it on; an unknown rate leaves M, N and measurement alone; the stream ends enabled with the FIFO running, and no other register changes |
| DpStream.MseRate | amd/dal/dc/dce80/dce80_stream_encoder.c:566-573 | x·2^32 + y·64 is within 64 of the 31.32 time-slot value, from above, and y is at most 2^26 |
| DpStream.SetMstBandwidth | amd/dal/dc/dce80/dce80_stream_encoder.c:556-617 | writes the rate, then polls the update-pending bit at most 50 times |

## Left out

- **Allocation failures.** Two allocation failures are modelled, each as an input. `dc_sink_create` returning NULL in `dc_link_add_remote_sink` (amd/dal/dc/core/dc.c:1331-1334) is `newSinkId == None` in `Links.AddRemoteSink`. The virtual link's `dm_alloc` failing (amd/dal/dc/core/dc.c:127-131) is `!allocVirtual(v)` in `Links.CreateLinks` and `Dc.Create`. The other allocations are not modelled and always succeed:
  - `dc_create`'s own allocations (amd/dal/dc/core/dc.c:292-300, 437);
  - the validation contexts and their copies (amd/dal/dc/core/dc.c:488, 520, 817, 903);
  - the virtual link's encoder, whose result the source never checks (amd/dal/dc/core/dc.c:142).
- **Logging, `BREAK_TO_DEBUGGER`, `ASSERT`, `CONN_MSG_MODE`, and the `udelay` waits.** These have no effect on state.
- **Reference counting and freeing.** Retain/release of targets, sinks and contexts, and the `destruct` paths, are left out. Contexts are values here.
- **Code outside `dc.c`.** Scaling parameters, `surface_visual_confirm`, the adapter service, and the resource pool's internals are left out. The pool's routines are parameters.
- **Entry points the commit protocol does not use.** These are `dc_validate_resources`, `dc_validate_guaranteed`, flips, interrupts, DPCD and I2C access, and `dc_resume`.
- **fixed31_32 arithmetic.** Only the floor and the ceiling of the shifted fraction are modelled. `MseRate` takes the value's raw 64-bit representation and requires it to be non-negative; the driver passes a time-slot count.
- **Register field widths and bit positions.** These come from headers the model does not have. The generic-packet index and the M/N fields are not masked to their widths.
- **`DP_MSE_RATE_UPDATE` poll mask.** The poll tests the extracted field against the register's mask. The model assumes the mask is bit 0, so the field is the pending bit.
- **Header constants.** Values from headers outside this model are fixed at the driver's values:
  - `MAX_PIPES` = 6, `MAX_SINKS_PER_LINK` = 4, `MAX_EDID_BUFFER_SIZE` = 512, `ENUM_ID_COUNT` = 8;
  - `DP_BLANK_MAX_RETRY` = 20, `DP_MST_UPDATE_MAX_RETRY` = 50, `LINK_RATE_REF_FREQ_IN_KHZ` = 27000;
  - the colour-depth, pixel-encoding and link-rate enum codes;
  - the `AFMT_AVI_INFO_VERSION` field of `AFMT_AVI_INFO3` at bits 24 to 31 (`EncoderRegs.AviVersion`).
- **`dce80_send_null_packet`.** Its body is empty.
- **Audio, DPCD and interrupt programming.** These belong to other encoder blocks.
- **`kcl_fence.c`, `kcl_ttm.c` and the remaining backport headers.** These are kernel-compatibility glue and outside the modelled core.
- **DisplayConfig.DisplayRequirements:** when there is not exactly one display, the source leaves `crtc_index` and `line_time_in_us` as the context already held them (amd/dal/dc/core/dc.c:769-779), and those stale values reach `dm_pp_apply_display_requirements`. The model has no previous value and gives `single == None`. It promises nothing about what the power library sees in those two fields then.
- **Other power-play fields.** The blackout, memory-clock, engine-clock and CPU power-state fields that `pplib_apply_display_requirements` copies from the bandwidth results are not modelled.
- **DisplayConfig.DisplayRequirements:** the contract bounds `line_time_in_us` by `h_total * 1000` but does not state its value. The single-display timing is taken from the first admitted stream. The source reads the first target's first stream; the two agree whenever every target has a stream.
- **StreamAttributes.HdmiSetStreamAttribute / DviSetStreamAttribute:** the BIOS encoder set-up is a pure answer (`StreamEncoder.encoderControl`), so it is assumed to write none of the modelled registers. The source reads `TMDS_CNTL` before the BIOS call and writes it back after (amd/dal/dc/dce80/dce80_stream_encoder.c:374-400 and 509-553), and reads the later HDMI registers after the call (403-498). The contracts relate all of them to the registers before the call, which holds only under that assumption. The same holds for `DviSetStreamAttributeAsWritten`.
- **DpStream.DpUnblank:** the 100 us settle delay before the stream is enabled is not modelled.
- **Links.AddRemoteSink:** the EDID is a byte sequence, so its length is never negative. The source takes `int len` and rejects only `len > MAX_EDID_BUFFER_SIZE` (amd/dal/dc/core/dc.c:1309, 1316). A negative length passes that test and reaches `memmove` as a huge `size_t` (amd/dal/dc/core/dc.c:1336); the model cannot express that input.
- **Nonzero timing divisors.** `h_total`, `v_total` and `pix_clk_khz` are positive by type. The source divides by them without a check (amd/dal/dc/core/dc.c:702-705, 727-728, 774-775); a zero there would fault, and the model does not cover that case.
- **DisplayConfig.DispConfigOf:** of the per-display fields `fill_display_configs` fills (amd/dal/dc/core/dc.c:689-705), only the pipe index and the refresh rate are modelled. The signal, source height and width, DDI channel mapping, transmitter, lane count, link rate, link spread and symbol clock are left out: they are copied from the stream and its link without computation.
- **DisplayConfig.DispConfigOf:** a stream with no pipe gets no pipe index. The source asserts and then reads through the NULL pipe (amd/dal/dc/core/dc.c:686-690), so that case is undefined behaviour there.
- **Dc.CommitTargets:** the source reads `streams[0]->sink` of every new target, even one with no streams (amd/dal/dc/core/dc.c:846-848). The model does not read it, so a target without streams is not a fault here.
- **Payload byte order.** The source reads info-packet payloads as 32-bit words through a pointer cast, so the words are in host byte order. `InfoPackets.LeWord` assumes a little-endian host.

## Findings

| source | as written | input that shows it | evidently intended | confidence | as-written member | corrected member |
|---|---|---|---|---|---|---|
| amd/dal/dc/dce80/dce80_stream_encoder.c:534-552 | the `TMDS_COLOR_FORMAT` switch is on `pixel_encoding` with the case label `COLOR_DEPTH_101010` (numerically YCbCr 4:4:4), and the inner test asks for RGB, so it can never hold; the colour format is always 0 | a 10-bpc RGB DVI timing (`pixel_encoding` RGB, `display_color_depth` 10 bpc) | switch on `display_color_depth`: 10-bpc RGB gets colour format 2 | not executed | StreamAttributes.DviSetStreamAttributeAsWritten | StreamAttributes.DviSetStreamAttribute |

- `StreamAttributes.DviColorFormatAsWritten` states that the as-written colour format is 0 for every timing.
- `StreamAttributes.DviColorFormatDiscrepancy` exhibits a 10-bpc RGB timing on which the two definitions disagree.
- `StreamAttributes.DviAsWrittenDiffersOnlyOn10BitRgb` proves that the two set-ups differ exactly on 10-bpc RGB timings.

=== FILE: commit.dfy ===
/**
 * The display core object and its commit sequencing (`dc_create`,
 * `targets_changed`, `dc_commit_targets`, `dc_commit_surfaces_to_target`,
 * `dc_update_surfaces_for_target`, `dc_set_power_state`, and the accessors).
 *
 * Every operation is a pure function of the device value: it returns the
 * new device and the calls it makes into the hardware sequencer, the timing
 * generators and the power library, in order. The resource pool's
 * validation, the sequencer's programming and the BIOS query are oracles
 * held in an `Hw` record.
 */
module Dc {
  import opened Wrappers
  import opened Seqs
  import opened CoreStatus
  import opened DcTypes
  import opened DisplayConfig
  import opened HwEvents
  import opened TimingSync
  import opened Links

  /** What `validate_with_context` answers, and the context it filled in. */
  datatype Validation = Validation(status: DcStatus, context: Ctx)

  /**
   * The resource pool and the collaborators whose code lies outside the core:
   * pool sizes, the BIOS's `is_accelerated_mode`, and the pool and sequencer
   * functions the commit paths call.
   *
   * `attachSurfaces` (`resource_attach_surfaces_to_context`) and
   * `validateBandwidth` edit the context they are given; they return whether
   * they succeeded and the edited context. `applyClkConstraints` is None when
   * the pool has no such hook.
   */
  datatype Hw = Hw(
    pipeCount: nat,
    streamEncCount: nat,
    audioCount: nat,
    isAcceleratedMode: bool,
    validateWithContext: seq<Target> -> Validation,
    applyCtxToHw: Ctx -> DcStatus,
    synchronizable: (Stream, Stream) -> bool,
    attachSurfaces: (seq<Surface>, Target, Ctx) -> (bool, Ctx),
    validateBandwidth: Ctx -> (DcStatus, Ctx),
    applyClkConstraints: Option<Ctx -> Option<Ctx>>)

  /** `dc_caps`: what `dc_create` publishes about the device. */
  datatype DcCaps = DcCaps(maxTargets: nat, maxLinks: nat, maxAudios: nat)

  /**
   * `core_dc`: the committed context, the links, the video power states
   * (opaque `dc_video_power_state` codes) and the published capabilities.
   */
  datatype Device = Device(
    current: Ctx,
    links: seq<Link>,
    currentPowerState: nat,
    previousPowerState: nat,
    caps: DcCaps)

  /** `dc_acpi_cm_power_state`: only D0 (fully on) is told apart. */
  datatype AcpiPowerState = PowerD0 | PowerD1 | PowerD2 | PowerD3

  /** The capabilities `dc_create` publishes: a target needs both a pipe and a stream encoder. */
  function Caps(hw: Hw, linkCount: nat): (c: DcCaps)
    ensures c.maxTargets <= hw.pipeCount && c.maxTargets <= hw.streamEncCount
    ensures c.maxTargets == hw.pipeCount || c.maxTargets == hw.streamEncCount
    ensures c.maxLinks == linkCount && c.maxAudios == hw.audioCount
  {
    DcCaps(if hw.pipeCount < hw.streamEncCount then hw.pipeCount else hw.streamEncCount,
           linkCount, hw.audioCount)
  }

  /**
   * `dc_create` once the resource pool exists: create the links, initialise
   * the hardware and publish the capabilities. No device results when link
   * creation fails. The committed context starts zeroed.
   */
  method Create(hw: Hw, connectorsNum: int, numVirtualLinks: nat,
                linkCreate: nat -> Option<Signal>, allocVirtual: nat -> bool)
    returns (d: Option<Device>, trace: seq<Event>)
    ensures connectorsNum > EnumIdCount ==> d.None?
    ensures d.None? ==> trace == []
    ensures d.Some? ==>
              trace == [InitHw] &&
              d.value.current == ZeroContext() &&
              d.value.caps == Caps(hw, |d.value.links|) &&
              (forall k | 0 <= k < |d.value.links| :: d.value.links[k].index == k) &&
              |d.value.links| >= numVirtualLinks
    ensures d.Some? <==>
              connectorsNum <= EnumIdCount && forall v | 0 <= v < numVirtualLinks :: allocVirtual(v)
  {
    var ok, links := CreateLinks(connectorsNum, numVirtualLinks, linkCreate, allocVirtual);
    if !ok {
      return None, [];
    }
    var m := if connectorsNum < 0 then 0 else connectorsNum;
    var p := CountCreated(linkCreate, m);
    assert forall k | 0 <= k < p :: links[..p][k] == links[k];
    d := Some(Device(ZeroContext(), links, 0, 0, Caps(hw, |links|)));
    trace := [InitHw];
  }

  /** Two target lists name the same targets in the same order (targets compared by identity). */
  predicate SameTargets(a: seq<Target>, b: seq<Target>) {
    |a| == |b| && forall i | 0 <= i < |a| :: a[i].id == b[i].id
  }

  /** `targets_changed`: whether the requested list differs from the committed one. */
  method TargetsChanged(current: seq<Target>, targets: seq<Target>) returns (changed: bool)
    ensures changed <==> !SameTargets(current, targets)
  {
    if |targets| != |current| {
      return true;
    }
    var i := 0;
    while i < |current|
      invariant 0 <= i <= |current|
      invariant forall k | 0 <= k < i :: current[k].id == targets[k].id
    {
      if current[i].id != targets[i].id {
        return true;
      }
      i := i + 1;
    }
    return false;
  }

  /**
   * A pipe slot the memory-request helpers act on for stream `s`: it drives
   * `s` and, when `skipChildren`, it is not the lower half of a split pipe.
   */
  predicate Reaches(p: PipeCtx, s: Stream, skipChildren: bool) {
    BoundTo(p, s) && (!skipChildren || p.topPipe.None?)
  }

  /**
   * `evs` calls `set_blank(blank)` on exactly the slots below `limit` that
   * some stream of `streams` reaches, and makes no other call. Only which
   * slots are called is stated: `set_blank` is idempotent, so the order of
   * the calls and a slot called twice (a stream listed twice) are abstracted.
   */
  predicate BlanksExactly(evs: seq<Event>, streams: seq<Stream>, pipes: seq<PipeCtx>,
                          limit: nat, skipChildren: bool, blank: bool)
    requires limit <= |pipes|
  {
    (forall e | e in evs :: e.SetBlank? && e.blank == blank && e.pipe < limit) &&
    (forall j | 0 <= j < limit ::
       SetBlank(j, blank) in evs <==> exists s | s in streams :: Reaches(pipes[j], s, skipChildren))
  }

  /**
   * The loop of `target_enable_memory_requests` / `target_disable_memory_requests`:
   * stream by stream, every slot below `limit` the stream reaches is blanked
   * or unblanked.
   */
  method SetBlankForStreams(streams: seq<Stream>, pipes: seq<PipeCtx>, limit: nat,
                            skipChildren: bool, blank: bool)
    returns (evs: seq<Event>)
    requires limit <= |pipes|
    ensures BlanksExactly(evs, streams, pipes, limit, skipChildren, blank)
  {
    evs := [];
    var i := 0;
    while i < |streams|
      invariant 0 <= i <= |streams|
      invariant BlanksExactly(evs, streams[..i], pipes, limit, skipChildren, blank)
    {
      var j := 0;
      while j < limit
        invariant 0 <= j <= limit
        invariant forall e | e in evs :: e.SetBlank? && e.blank == blank && e.pipe < limit
        invariant forall x | 0 <= x < limit ::
                    SetBlank(x, blank) in evs <==>
                    (exists s | s in streams[..i] :: Reaches(pipes[x], s, skipChildren)) ||
                    (x < j && Reaches(pipes[x], streams[i], skipChildren))
      {
        if Reaches(pipes[j], streams[i], skipChildren) {
          evs := evs + [SetBlank(j, blank)];
        }
        j := j + 1;
      }
      assert streams[..i + 1] == streams[..i] + [streams[i]];
      i := i + 1;
    }
    assert streams[..i] == streams;
  }

  /** A committed target with surfaces drives pipe slot `p` of the context being replaced. */
  predicate Unblanked(ctx: Ctx, p: PipeCtx) {
    exists i | 0 <= i < |ctx.targets| ::
      |ctx.targetStatus[i].surfaces| > 0 && exists s | s in ctx.targets[i].streams :: BoundTo(p, s)
  }

  /**
   * `evs` unblanks exactly the slots of `cur` that a target of `ctx` with
   * surfaces drives. As in `BlanksExactly`, the order of the calls and
   * repeated calls on one slot are abstracted, since `set_blank` is idempotent.
   */
  predicate UnblanksExactly(evs: seq<Event>, ctx: Ctx, cur: Ctx) {
    (forall e | e in evs :: e.SetBlank? && !e.blank && e.pipe < MaxPipes) &&
    (forall j | 0 <= j < MaxPipes :: SetBlank(j, false) in evs <==> Unblanked(ctx, cur.pipes[j]))
  }

  /**
   * The unblanking step of `dc_commit_targets`: for each new target that has
   * surfaces, `target_enable_memory_requests` over all `MAX_PIPES` slots of the
   * context being replaced, `cur`.
   */
  method EnableMemoryRequests(ctx: Ctx, cur: Ctx) returns (evs: seq<Event>)
    ensures UnblanksExactly(evs, ctx, cur)
  {
    evs := [];
    var i := 0;
    while i < |ctx.targets|
      invariant 0 <= i <= |ctx.targets|
      invariant forall e | e in evs :: e.SetBlank? && !e.blank && e.pipe < MaxPipes
      invariant forall j | 0 <= j < MaxPipes ::
                  SetBlank(j, false) in evs <==>
                  exists t | 0 <= t < i ::
                    |ctx.targetStatus[t].surfaces| > 0 &&
                    exists s | s in ctx.targets[t].streams :: BoundTo(cur.pipes[j], s)
    {
      if |ctx.targetStatus[i].surfaces| > 0 {
        var more := SetBlankForStreams(ctx.targets[i].streams, cur.pipes, MaxPipes, false, false);
        evs := evs + more;
      }
      i := i + 1;
    }
  }

  /** The calls `dc_commit_targets` makes before timing synchronisation. */
  function SetupEvents(accelerated: bool): (r: seq<Event>)
    ensures |r| >= 2 && r[0] == ApplySafeState && r[|r| - 1] == ApplyCtxToHw
    ensures EnableAcceleratedMode in r <==> !accelerated
  {
    [ApplySafeState] + (if accelerated then [] else [EnableAcceleratedMode]) + [ApplyCtxToHw]
  }

  /**
   * The calls of a commit that installs `ctx` in place of `cur`, in order:
   * the setup calls, one timing-synchronisation call per group of more than
   * one pipe, the unblanking of `cur`'s pipes that now show surfaces, and the
   * power-library requirements of `ctx`.
   */
  predicate CommitTargetsShape(trace: seq<Event>, accelerated: bool, groups: seq<seq<nat>>, ctx: Ctx, cur: Ctx) {
    var head := SetupEvents(accelerated) + SyncEvents(groups);
    |head| < |trace| && trace[..|head|] == head &&
    UnblanksExactly(trace[|head|..|trace| - 1], ctx, cur) &&
    trace[|trace| - 1] == ApplyDisplayRequirements(DisplayRequirements(ctx))
  }

  /**
   * `dc_commit_targets`. An unchanged target list returns `DC_OK` (which, as
   * a `bool`, is true) and does nothing. A list the pool rejects fails and
   * changes nothing. Otherwise the new context is programmed and installed,
   * whether or not `apply_ctx_to_hw` succeeded, and the result says whether it
   * did. The unblanking consults the pipes of the context being REPLACED.
   * `syncGroups` are the pipe groups handed to timing synchronisation.
   */
  method CommitTargets(hw: Hw, d: Device, targets: seq<Target>)
    returns (ok: bool, d': Device, trace: seq<Event>, syncGroups: seq<seq<nat>>)
    requires hw.pipeCount <= MaxPipes
    ensures SameTargets(d.current.targets, targets) ==> ok && d' == d && trace == []
    ensures !SameTargets(d.current.targets, targets) && hw.validateWithContext(targets).status != Ok ==>
              !ok && d' == d && trace == []
    ensures !SameTargets(d.current.targets, targets) && hw.validateWithContext(targets).status == Ok ==>
              var ctx := hw.validateWithContext(targets).context;
              d' == d.(current := ctx) &&
              (ok <==> hw.applyCtxToHw(ctx) == Ok) &&
              IsSyncPartition(ctx.pipes, hw.pipeCount, hw.synchronizable, syncGroups) &&
              CommitTargetsShape(trace, hw.isAcceleratedMode, syncGroups, ctx, d.current)
  {
    var changed := TargetsChanged(d.current.targets, targets);
    if !changed {
      return AsBool(Code(Ok)), d, [], [];
    }
    var validation := hw.validateWithContext(targets);
    if validation.status != Ok {
      return false, d, [], [];
    }
    var ctx := validation.context;
    var result := hw.applyCtxToHw(ctx);
    var head := SetupEvents(hw.isAcceleratedMode);
    var syncEvents;
    syncGroups, syncEvents := ProgramTimingSync(ctx.pipes, hw.pipeCount, hw.synchronizable);
    head := head + syncEvents;
    var unblank := EnableMemoryRequests(ctx, d.current);
    trace := head + unblank + [ApplyDisplayRequirements(DisplayRequirements(ctx))];
    assert trace[..|head|] == head;
    assert trace[|head|..|trace| - 1] == unblank;
    d' := d.(current := ctx);
    ok := result == Ok;
  }

  /** How many of `s` are visible. */
  function VisibleCount(s: seq<Surface>): (r: nat)
    ensures r <= |s|
    ensures r == 0 <==> forall k | 0 <= k < |s| :: !s[k].visible
    ensures r == |s| <==> forall k | 0 <= k < |s| :: s[k].visible
  {
    if |s| == 0 then 0
    else VisibleCount(s[..|s| - 1]) + (if s[|s| - 1].visible then 1 else 0)
  }

  /** The slot of `target` in the committed list, by identity. */
  function TargetIndex(ctx: Ctx, target: Target): (r: Option<nat>)
    ensures r.Some? ==> r.value < |ctx.targets| && ctx.targets[r.value].id == target.id
    ensures r.None? <==> forall i | 0 <= i < |ctx.targets| :: ctx.targets[i].id != target.id
  {
    FirstMatch(ctx.targets, (t: Target) => t.id == target.id, 0)
  }

  /**
   * The context `dc_commit_surfaces_to_target` builds on a copy of the
   * committed one before programming anything, or None when it gives up:
   * nothing committed, the target not committed, the BIOS not in accelerated
   * mode, the surfaces not attachable, bandwidth validation failing, or the
   * clock-constraint hook (when present) failing.
   */
  function SurfaceContext(hw: Hw, cur: Ctx, surfaces: seq<Surface>, target: Target): (r: Option<Ctx>)
    ensures r.Some? <==>
              |cur.targets| > 0 && TargetIndex(cur, target).Some? && hw.isAcceleratedMode &&
              hw.attachSurfaces(surfaces, target, cur).0 &&
              hw.validateBandwidth(hw.attachSurfaces(surfaces, target, cur).1).0 == Ok &&
              (hw.applyClkConstraints.Some? ==>
                 hw.applyClkConstraints.value(hw.validateBandwidth(hw.attachSurfaces(surfaces, target, cur).1).1).Some?)
    ensures r.Some? && hw.applyClkConstraints.None? ==>
              r.value == hw.validateBandwidth(hw.attachSurfaces(surfaces, target, cur).1).1
  {
    if |cur.targets| == 0 then None
    else if !hw.isAcceleratedMode || TargetIndex(cur, target).None? then None
    else
      var (attached, withSurfaces) := hw.attachSurfaces(surfaces, target, cur);
      if !attached then None
      else
        var (bwStatus, validated) := hw.validateBandwidth(withSurfaces);
        if bwStatus != Ok then None
        else if hw.applyClkConstraints.None? then Some(validated)
        else hw.applyClkConstraints.value(validated)
  }

  /** Raise the display clock (requirements first) when the new context needs more. */
  function RaiseClock(prev: nat, next: nat, req: Event): seq<Event> {
    if prev < next then [req, SetDisplayClock(next)] else []
  }

  /** Lower the display clock (requirements last) when the new context needs less. */
  function LowerClock(prev: nat, next: nat, req: Event): seq<Event> {
    if prev > next then [SetDisplayClock(next), req] else []
  }

  /**
   * Whether a surface commit blanks the target's pipes first: the target
   * had visible surfaces and none of the new ones is visible.
   */
  function Blanking(cur: Ctx, surfaces: seq<Surface>, target: Target): bool {
    match TargetIndex(cur, target)
    case None => false
    case Some(i) => VisibleCount(cur.targetStatus[i].surfaces) > 0 && VisibleCount(surfaces) == 0
  }

  /**
   * The calls of a successful surface commit, in order: the clock raise (if
   * any), the blanking of `streams`' top pipes below `limit` (if `blanking`),
   * the surface programming, and the clock lowering (if any).
   */
  predicate SurfaceCommitShape(trace: seq<Event>, prev: nat, ctx: Ctx, blanking: bool,
                               streams: seq<Stream>, pipes: seq<PipeCtx>, limit: nat)
    requires limit <= |pipes|
  {
    var req := ApplyDisplayRequirements(DisplayRequirements(ctx));
    var pre := RaiseClock(prev, ctx.bw.dispclkKhz, req);
    var post := LowerClock(prev, ctx.bw.dispclkKhz, req);
    |pre| + |post| < |trace| &&
    trace[..|pre|] == pre &&
    trace[|trace| - |post| - 1..] == [ApplyCtxToSurface] + post &&
    (blanking ==> BlanksExactly(trace[|pre|..|trace| - |post| - 1], streams, pipes, limit, true, true)) &&
    (!blanking ==> |trace| == |pre| + 1 + |post|)
  }

  /**
   * The clock discipline around surface programming: the surfaces are
   * programmed once; every display clock set before that is above `prev`
   * and every one set after is below it; the clock is set to `next` exactly
   * when it changes.
   */
  predicate ClockDiscipline(trace: seq<Event>, prev: nat, next: nat) {
    (exists a | 0 <= a < |trace| ::
       trace[a] == ApplyCtxToSurface &&
       (forall k | 0 <= k < |trace| && k != a :: trace[k] != ApplyCtxToSurface) &&
       (forall k | 0 <= k < a :: trace[k].SetDisplayClock? ==> trace[k].dispclkKhz > prev) &&
       (forall k | a < k < |trace| :: trace[k].SetDisplayClock? ==> trace[k].dispclkKhz < prev)) &&
    (SetDisplayClock(next) in trace <==> prev != next)
  }

  /** The programming half of `dc_commit_surfaces_to_target`, once the new context `ctx` is built. */
  method ProgramSurfaces(prev: nat, ctx: Ctx, blanking: bool, streams: seq<Stream>,
                         pipes: seq<PipeCtx>, limit: nat)
    returns (trace: seq<Event>)
    requires limit <= |pipes|
    ensures SurfaceCommitShape(trace, prev, ctx, blanking, streams, pipes, limit)
    ensures ClockDiscipline(trace, prev, ctx.bw.dispclkKhz)
  {
    var req := ApplyDisplayRequirements(DisplayRequirements(ctx));
    var pre := RaiseClock(prev, ctx.bw.dispclkKhz, req);
    var post := LowerClock(prev, ctx.bw.dispclkKhz, req);
    var blanks := [];
    if blanking {
      blanks := SetBlankForStreams(streams, pipes, limit, true, true);
    }
    trace := pre + blanks + [ApplyCtxToSurface] + post;
    assert trace[..|pre|] == pre;
    assert trace[|trace| - |post| - 1..] == [ApplyCtxToSurface] + post;
    assert trace[|pre|..|trace| - |post| - 1] == blanks;
    ClockOrder(prev, ctx.bw.dispclkKhz, req, blanks);
  }

  /**
   * `dc_commit_surfaces_to_target`. On failure nothing changes and nothing is
   * programmed. On success the new context is installed, and the display
   * clock is raised before the surfaces are programmed and lowered after,
   * never the other way round. When the target had visible surfaces and gets
   * none, its stream pipes of the committed context (below the pool's pipe
   * count, split children excluded) are blanked before programming.
   */
  method CommitSurfacesToTarget(hw: Hw, d: Device, surfaces: seq<Surface>, target: Target)
    returns (ok: bool, d': Device, trace: seq<Event>)
    requires hw.pipeCount <= MaxPipes
    ensures ok <==> SurfaceContext(hw, d.current, surfaces, target).Some?
    ensures !ok ==> d' == d && trace == []
    ensures ok ==> d' == d.(current := SurfaceContext(hw, d.current, surfaces, target).value)
    ensures ok ==> SurfaceCommitShape(trace, d.current.bw.dispclkKhz, d'.current,
                                      Blanking(d.current, surfaces, target),
                                      target.streams, d.current.pipes, hw.pipeCount)
    ensures ok ==> ClockDiscipline(trace, d.current.bw.dispclkKhz, d'.current.bw.dispclkKhz)
  {
    var next := SurfaceContext(hw, d.current, surfaces, target);
    if next.None? {
      return false, d, [];
    }
    var ctx := next.value;
    trace := ProgramSurfaces(d.current.bw.dispclkKhz, ctx, Blanking(d.current, surfaces, target),
                             target.streams, d.current.pipes, hw.pipeCount);
    d' := d.(current := ctx);
    ok := true;
  }

  /**
   * The clock discipline holds for any surface-commit trace whose middle
   * part only blanks pipes.
   */
  lemma ClockOrder(prev: nat, next: nat, req: Event, blanks: seq<Event>)
    requires forall e | e in blanks :: e.SetBlank?
    requires !req.SetDisplayClock? && req != ApplyCtxToSurface
    ensures ClockDiscipline(RaiseClock(prev, next, req) + blanks + [ApplyCtxToSurface] + LowerClock(prev, next, req),
                            prev, next)
  {
    var pre := RaiseClock(prev, next, req);
    var post := LowerClock(prev, next, req);
    var trace := pre + blanks + [ApplyCtxToSurface] + post;
    var a := |pre| + |blanks|;
    assert trace[a] == ApplyCtxToSurface;
    forall k | 0 <= k < |trace| && k != a
      ensures trace[k] != ApplyCtxToSurface
    {
      if k < |pre| {
        assert trace[k] == pre[k];
      } else if k < a {
        assert trace[k] == blanks[k - |pre|];
        assert trace[k] in blanks;
      } else {
        assert trace[k] == post[k - a - 1];
      }
    }
    forall k | 0 <= k < a
      ensures trace[k].SetDisplayClock? ==> trace[k].dispclkKhz > prev
    {
      if k < |pre| {
        assert trace[k] == pre[k];
      } else {
        assert trace[k] == blanks[k - |pre|];
        assert blanks[k - |pre|] in blanks;
      }
    }
    if prev < next {
      assert trace[1] == SetDisplayClock(next);
    } else if prev > next {
      assert trace[a + 1] == SetDisplayClock(next);
      assert trace[a + 2] == req;
      assert |trace| == a + 3;
    } else {
      assert trace == blanks + [ApplyCtxToSurface];
      assert SetDisplayClock(next) !in blanks;
    }
  }

  /** The identities of a surface list, in order (what `update_plane_surface` is handed). */
  function SurfaceIds(surfaces: seq<Surface>): (r: seq<nat>)
    ensures |r| == |surfaces|
    ensures forall k | 0 <= k < |r| :: r[k] == surfaces[k].id
  {
    seq(|surfaces|, k requires 0 <= k < |surfaces| => surfaces[k].id)
  }

  /**
   * `dc_update_surfaces_for_target`: attach the surfaces to the committed
   * context IN PLACE and reprogram the planes. Unlike a surface commit there
   * is no copy: whatever a failing attach did to the context stays.
   */
  method UpdateSurfacesForTarget(hw: Hw, d: Device, surfaces: seq<Surface>, target: Target)
    returns (ok: bool, d': Device, trace: seq<Event>)
    ensures var reached := |d.current.targets| > 0 && hw.isAcceleratedMode && TargetIndex(d.current, target).Some?;
            var attach := hw.attachSurfaces(surfaces, target, d.current);
            (!reached ==> !ok && d' == d && trace == []) &&
            (reached ==> (ok <==> attach.0) && d' == d.(current := attach.1)) &&
            (ok ==> trace == [UpdatePlaneSurface(SurfaceIds(surfaces))]) &&
            (!ok ==> trace == [])
  {
    if |d.current.targets| == 0 {
      return false, d, [];
    }
    if !hw.isAcceleratedMode || TargetIndex(d.current, target).None? {
      return false, d, [];
    }
    var (attached, ctx) := hw.attachSurfaces(surfaces, target, d.current);
    d' := d.(current := ctx);
    if !attached {
      return false, d', [];
    }
    return true, d', [UpdatePlaneSurface(SurfaceIds(surfaces))];
  }

  /**
   * `dc_set_power_state`: record the video power states; at D0 initialise the
   * hardware; otherwise release every target, power down, and zero the
   * committed context.
   */
  method SetPowerState(hw: Hw, d: Device, power: AcpiPowerState, video: nat)
    returns (d': Device, trace: seq<Event>, syncGroups: seq<seq<nat>>)
    requires hw.pipeCount <= MaxPipes
    ensures d'.previousPowerState == d.currentPowerState && d'.currentPowerState == video
    ensures d'.links == d.links && d'.caps == d.caps
    ensures power == PowerD0 ==> d'.current == d.current && trace == [InitHw]
    ensures power != PowerD0 ==> d'.current == ZeroContext() && |trace| > 0 && trace[|trace| - 1] == PowerDown
    ensures power != PowerD0 && (|d.current.targets| == 0 || hw.validateWithContext([]).status != Ok) ==>
              trace == [PowerDown]
    ensures power != PowerD0 && |d.current.targets| > 0 && hw.validateWithContext([]).status == Ok ==>
              var ctx := hw.validateWithContext([]).context;
              IsSyncPartition(ctx.pipes, hw.pipeCount, hw.synchronizable, syncGroups) &&
              CommitTargetsShape(trace[..|trace| - 1], hw.isAcceleratedMode, syncGroups, ctx, d.current)
  {
    var d1 := d.(previousPowerState := d.currentPowerState, currentPowerState := video);
    if power == PowerD0 {
      return d1, [InitHw], [];
    }
    var ok, d2, released;
    ok, d2, released, syncGroups := CommitTargets(hw, d1, []);
    d' := d2.(current := ZeroContext());
    trace := released + [PowerDown];
    assert trace[..|trace| - 1] == released;
  }

  /** `dc_get_current_target_count`. */
  function CurrentTargetCount(d: Device): (r: nat)
    ensures r == 0 <==> GetTargetAtIndex(d, 0).None?
    ensures forall i: nat | i < 256 :: GetTargetAtIndex(d, i).Some? <==> i < r
  {
    |d.current.targets|
  }

  /** `dc_get_target_at_index`: the committed target in slot `i`, if there is one. */
  function GetTargetAtIndex(d: Device, i: nat): (r: Option<Target>)
    requires i < 256
    ensures r.Some? <==> i < |d.current.targets|
    ensures r.Some? ==> r.value in d.current.targets && r.value == d.current.targets[i]
  {
    if i < |d.current.targets| then Some(d.current.targets[i]) else None
  }
}

=== FILE: display_config.dfy ===
/**
 * The display-configuration record handed to the platform power library
 * (`pplib_apply_display_requirements`): the minimum vertical-blank time over
 * all admitted streams, and one entry per stream with its pipe and rounded
 * refresh rate.
 */
module DisplayConfig {
  import opened Wrappers
  import opened Ints
  import opened DcTypes
  import opened Seqs

  const NoVBlankLimit: U32 := 0xFFFF_FFFF

  /** `pix_clk_khz * 1000 / h_total` in 32-bit unsigned arithmetic: lines per second. */
  function LineRate(t: Timing): U32 {
    WrapU32(t.pixClkKhz * 1000) / t.hTotal
  }

  /** The vertical-blank duration in microseconds of one stream, in 32-bit unsigned arithmetic. */
  function VBlankTimeUs(s: Stream): U32 {
    var blankPixels := WrapU32(s.timing.hTotal * WrapU32(s.timing.vTotal - s.timing.vAddressable));
    WrapU32(blankPixels * 1000) / s.timing.pixClkKhz
  }

  /** The inner loop of `get_min_vblank_time_us`: fold the minimum over one target's streams. */
  function MinOverStreams(streams: seq<Stream>, acc: U32): (r: U32)
    ensures r <= acc
    ensures forall k | 0 <= k < |streams| :: r <= VBlankTimeUs(streams[k])
    ensures r == acc || exists k | 0 <= k < |streams| :: r == VBlankTimeUs(streams[k])
  {
    if |streams| == 0 then acc
    else
      var t := VBlankTimeUs(streams[0]);
      var r := MinOverStreams(streams[1..], if acc > t then t else acc);
      assert r == acc || r == t || exists k | 1 <= k < |streams| :: r == VBlankTimeUs(streams[k]) by {
        if r != acc && r != t {
          var k :| 0 <= k < |streams[1..]| && r == VBlankTimeUs(streams[1..][k]);
          assert r == VBlankTimeUs(streams[k + 1]);
        }
      }
      r
  }

  /** The outer loop of `get_min_vblank_time_us`: targets in order. */
  function MinOverTargets(targets: seq<Target>, acc: U32): (r: U32)
    ensures r <= acc
    ensures forall s | s in AllStreams(targets) :: r <= VBlankTimeUs(s)
    ensures r == acc || exists s | s in AllStreams(targets) :: r == VBlankTimeUs(s)
  {
    if |targets| == 0 then acc
    else
      var mid := MinOverStreams(targets[0].streams, acc);
      var r := MinOverTargets(targets[1..], mid);
      assert AllStreams(targets) == targets[0].streams + AllStreams(targets[1..]);
      assert forall s | s in targets[0].streams :: r <= VBlankTimeUs(s) by {
        forall s | s in targets[0].streams ensures r <= VBlankTimeUs(s) {
          var k :| 0 <= k < |targets[0].streams| && targets[0].streams[k] == s;
        }
      }
      assert r == acc || exists s | s in AllStreams(targets) :: r == VBlankTimeUs(s) by {
        if r != acc && r != mid {
          var s :| s in AllStreams(targets[1..]) && r == VBlankTimeUs(s);
          assert s in AllStreams(targets);
        } else if r == mid && mid != acc {
          var k :| 0 <= k < |targets[0].streams| && mid == VBlankTimeUs(targets[0].streams[k]);
          assert targets[0].streams[k] in AllStreams(targets);
        }
      }
      r
  }

  /**
   * `get_min_vblank_time_us`: the smallest vertical-blank time over every
   * stream of every admitted target, or 0xFFFFFFFF when there is none.
   */
  function MinVBlankTimeUs(ctx: ValidateContext): (r: U32)
    ensures forall s | s in AllStreams(ctx.targets) :: r <= VBlankTimeUs(s)
    ensures r == NoVBlankLimit || exists s | s in AllStreams(ctx.targets) :: r == VBlankTimeUs(s)
    ensures |AllStreams(ctx.targets)| == 0 ==> r == NoVBlankLimit
  {
    MinOverTargets(ctx.targets, NoVBlankLimit)
  }

  /** The refresh rate in Hz rounded to the nearest integer, as `fill_display_configs` computes it. */
  function VRefresh(t: Timing): U32 {
    var v: int := t.vTotal;
    var num: int := WrapU32(LineRate(t) + v / 2);
    DivNoLarger(num, v);
    num / v
  }

  /** Dividing by a positive integer never increases a natural number. */
  lemma DivNoLarger(a: nat, b: nat)
    requires b > 0
    ensures 0 <= a / b <= a
  {
    var q := a / b;
    DivBounds(a, b);
    assert q * b == q + q * (b - 1);
  }

  /**
   * Without 32-bit overflow, `VRefresh` is the line rate divided by `v_total`
   * rounded to nearest (halves round up): the error is within half a frame.
   */
  lemma VRefreshIsRounded(t: Timing)
    requires t.pixClkKhz * 1000 < Two32
    requires t.pixClkKhz * 1000 / t.hTotal + t.vTotal / 2 < Two32
    ensures LineRate(t) == t.pixClkKhz * 1000 / t.hTotal
    ensures var v: int := t.vTotal; -v <= 2 * (LineRate(t) - VRefresh(t) * v) < v
  {
    var f: int := t.pixClkKhz * 1000 / t.hTotal;
    assert LineRate(t) == f;
    var v: int := t.vTotal;
    assert WrapU32(f + v / 2) == f + v / 2;
    assert VRefresh(t) == (f + v / 2) / v;
    RoundToNearest(f, v);
  }

  /** Adding half the divisor before dividing rounds to the nearest quotient. */
  lemma RoundToNearest(f: int, v: int)
    requires f >= 0 && v > 0
    ensures -v <= 2 * (f - ((f + v / 2) / v) * v) < v
  {
    var h := v / 2;
    assert 2 * h == v || 2 * h == v - 1;
    DivBounds(f + h, v);
  }

  /** Euclidean division brackets its dividend. */
  lemma DivBounds(a: nat, b: nat)
    requires b > 0
    ensures (a / b) * b <= a < (a / b) * b + b
  {
  }

  /**
   * One `dm_pp_single_disp_config` entry: the `pipe_idx` of the first pipe
   * bound to the stream (None where the driver asserts such a pipe exists),
   * the stream's identity and its rounded refresh rate.
   */
  datatype SingleDispConfig = SingleDispConfig(pipeIdx: Option<nat>, streamId: nat, vRefresh: U32)

  function DispConfigOf(pipes: seq<PipeCtx>, s: Stream): (c: SingleDispConfig)
    ensures c.streamId == s.id && c.vRefresh == VRefresh(s.timing)
    ensures c.pipeIdx.None? <==> forall k | 0 <= k < |pipes| :: !BoundTo(pipes[k], s)
    ensures c.pipeIdx.Some? ==>
              exists k | 0 <= k < |pipes| :: BoundTo(pipes[k], s) && c.pipeIdx.value == pipes[k].pipeIdx &&
                                             forall j | 0 <= j < k :: !BoundTo(pipes[j], s)
  {
    var k := FirstMatch(pipes, p => BoundTo(p, s), 0);
    SingleDispConfig(if k.Some? then Some(pipes[k.value].pipeIdx) else None, s.id, VRefresh(s.timing))
  }

  /** `fill_display_configs`: one entry per admitted stream, target by target, streams in order. */
  function FillDisplayConfigs(ctx: ValidateContext): (cfgs: seq<SingleDispConfig>)
    ensures |cfgs| == |AllStreams(ctx.targets)|
    ensures forall n | 0 <= n < |cfgs| ::
              cfgs[n].streamId == AllStreams(ctx.targets)[n].id &&
              cfgs[n].vRefresh == VRefresh(AllStreams(ctx.targets)[n].timing)
  {
    var ss := AllStreams(ctx.targets);
    seq(|ss|, n requires 0 <= n < |ss| => DispConfigOf(ctx.pipes, ss[n]))
  }

  /**
   * The fields set only when exactly one display is active: the CRTC of its
   * pipe and the time of one line, `h_total * 1000 / pix_clk_khz` in 32 bits.
   */
  datatype SingleDisplay = SingleDisplay(crtcIndex: Option<nat>, lineTimeInUs: U32)

  /** The fields of `dm_pp_display_configuration` the model carries. */
  datatype DisplayConfiguration = DisplayConfiguration(
    allDisplaysInSync: bool,
    dispClkKhz: nat,
    availMclkSwitchTimeUs: U32,
    displayCount: nat,
    dispConfigs: seq<SingleDispConfig>,
    single: Option<SingleDisplay>)

  /** The requirements `pplib_apply_display_requirements` derives from a context. */
  function DisplayRequirements(ctx: ValidateContext): (cfg: DisplayConfiguration)
    ensures cfg.allDisplaysInSync == ctx.bw.allDisplaysInSync
    ensures cfg.dispClkKhz == ctx.bw.dispclkKhz
    ensures cfg.availMclkSwitchTimeUs == MinVBlankTimeUs(ctx)
    ensures cfg.dispConfigs == FillDisplayConfigs(ctx)
    ensures cfg.displayCount == |AllStreams(ctx.targets)| == |cfg.dispConfigs|
    ensures forall s | s in AllStreams(ctx.targets) :: cfg.availMclkSwitchTimeUs <= VBlankTimeUs(s)
    ensures cfg.single.Some? <==> cfg.displayCount == 1
    ensures cfg.single.Some? ==>
              cfg.single.value.crtcIndex == cfg.dispConfigs[0].pipeIdx &&
              cfg.single.value.lineTimeInUs <= WrapU32(AllStreams(ctx.targets)[0].timing.hTotal * 1000)
  {
    var cfgs := FillDisplayConfigs(ctx);
    var single :=
      if |cfgs| == 1 then
        var t := AllStreams(ctx.targets)[0].timing;
        var wide := WrapU32(t.hTotal * 1000);
        DivNoLarger(wide, t.pixClkKhz);
        Some(SingleDisplay(cfgs[0].pipeIdx, wide / t.pixClkKhz))
      else None;
    DisplayConfiguration(
      ctx.bw.allDisplaysInSync,
      ctx.bw.dispclkKhz,
      MinVBlankTimeUs(ctx),
      |cfgs|,
      cfgs,
      single)
  }
}

=== FILE: encoder_attributes.dfy ===
/**
 * Stream attributes of the DCE 8.0 stream encoder: the DP pixel format,
 * the HDMI engine set-up and the DVI TMDS set-up, and encoder construction.
 *
 * The numeric codes of the colour-depth and pixel-encoding enumerations and
 * of the DP register fields are fixed here at the driver's values; they
 * matter because the DVI path compares a pixel encoding with a colour depth.
 */
module StreamAttributes {
  import opened Ints
  import opened Wrappers
  import opened EncoderRegs

  /** `dc_color_depth`. */
  datatype ColorDepth = DepthUndefined | Depth666 | Depth888 | Depth101010 | Depth121212 | Depth141414 | Depth161616

  /** `dc_pixel_encoding`. */
  datatype PixelEncoding = EncodingUndefined | Rgb | YCbCr422 | YCbCr444

  /** The enumerator value of a colour depth. */
  function DepthCode(d: ColorDepth): (r: nat)
    ensures r <= 6
  {
    match d
    case DepthUndefined => 0
    case Depth666 => 1
    case Depth888 => 2
    case Depth101010 => 3
    case Depth121212 => 4
    case Depth141414 => 5
    case Depth161616 => 6
  }

  /** The enumerator value of a pixel encoding. */
  function EncodingCode(e: PixelEncoding): (r: nat)
    ensures r <= 3
  {
    match e
    case EncodingUndefined => 0
    case Rgb => 1
    case YCbCr422 => 2
    case YCbCr444 => 3
  }

  /** Distinct enumerators have distinct values. */
  lemma CodesAreDistinct(d1: ColorDepth, d2: ColorDepth, e1: PixelEncoding, e2: PixelEncoding)
    ensures DepthCode(d1) == DepthCode(d2) ==> d1 == d2
    ensures EncodingCode(e1) == EncodingCode(e2) ==> e1 == e2
  {
  }

  /** Bits per colour component of a defined depth. */
  function BitsPerComponent(d: ColorDepth): (r: Option<nat>)
    ensures r.None? <==> d.DepthUndefined?
    ensures r.Some? ==> 6 <= r.value <= 16 && r.value % 2 == 0
  {
    match d
    case DepthUndefined => None
    case Depth666 => Some(6)
    case Depth888 => Some(8)
    case Depth101010 => Some(10)
    case Depth121212 => Some(12)
    case Depth141414 => Some(14)
    case Depth161616 => Some(16)
  }

  /** The part of `dc_crtc_timing` the encoder reads. */
  datatype CrtcTiming = CrtcTiming(pixelEncoding: PixelEncoding, colorDepth: ColorDepth, yOnly: bool, pixClkKhz: U32)

  // ---------------------------------------------------------------------
  // DisplayPort pixel format

  /** `DP_PIXEL_ENCODING` values. */
  const DpRgb444: nat := 0
  const DpYCbCr422: nat := 1
  const DpYCbCr444: nat := 2
  const DpYOnly: nat := 4

  /** `DP_COMPONENT_DEPTH` value for `bpc` bits per component: 6, 8, 10, 12 are 0 .. 3. */
  function DpDepthCode(bpc: nat): nat
    requires bpc in {6, 8, 10, 12}
  {
    (bpc - 6) / 2
  }

  /**
   * The pixel format `dp_set_stream_attribute` programs: the encoding
   * (Y-only replaces YCbCr 4:4:4 when the timing asks for it and the depth
   * is not 6 bpc), the component depth (6 bpc for every depth the register
   * cannot express), and zero dynamic and YCbCr ranges.
   */
  function DpPixelFormatFor(t: CrtcTiming): (f: DpPixelFormatFields)
    ensures f.dynRange == 0 && f.ycbcrRange == 0
    ensures f.pixelEncoding == DpYCbCr422 <==> t.pixelEncoding == YCbCr422
    ensures f.pixelEncoding == DpYOnly <==> t.pixelEncoding == YCbCr444 && t.yOnly && t.colorDepth != Depth666
    ensures f.pixelEncoding == DpYCbCr444 <==> t.pixelEncoding == YCbCr444 && !(t.yOnly && t.colorDepth != Depth666)
    ensures f.pixelEncoding == DpRgb444 <==> t.pixelEncoding in {Rgb, EncodingUndefined}
    ensures f.componentDepth <= 3
  {
    var encoding :=
      match t.pixelEncoding
      case YCbCr422 => DpYCbCr422
      case YCbCr444 => if t.yOnly && t.colorDepth != Depth666 then DpYOnly else DpYCbCr444
      case _ => DpRgb444;
    var depth :=
      match t.colorDepth
      case Depth888 => DpDepthCode(8)
      case Depth101010 => DpDepthCode(10)
      case Depth121212 => DpDepthCode(12)
      case _ => DpDepthCode(6);
    DpPixelFormatFields(encoding, depth, 0, 0)
  }

  /** The bits per component a `DP_COMPONENT_DEPTH` value announces to the sink. */
  function DpAnnouncedBpc(componentDepth: nat): nat {
    6 + 2 * componentDepth
  }

  /**
   * The component depth written announces the timing's depth for every
   * depth DP can carry here (6 to 12 bpc); deeper or undefined depths fall
   * back to 6 bpc.
   */
  lemma DpDepthRoundTrip(t: CrtcTiming)
    ensures t.colorDepth in {Depth666, Depth888, Depth101010, Depth121212} ==>
              Some(DpAnnouncedBpc(DpPixelFormatFor(t).componentDepth)) == BitsPerComponent(t.colorDepth)
    ensures t.colorDepth !in {Depth666, Depth888, Depth101010, Depth121212} ==>
              DpAnnouncedBpc(DpPixelFormatFor(t).componentDepth) == 6
  {
  }

  /** `dp_set_stream_attribute`: one write of `DP_PIXEL_FORMAT`, nothing else changes. */
  function DpSetStreamAttribute(regs: Regs, t: CrtcTiming): (r: EncState)
    ensures r.regs.dp.pixelFormat == DpPixelFormatFor(t)
    ensures r.regs == regs.(dp := regs.dp.(pixelFormat := r.regs.dp.pixelFormat))
    ensures r.writes == [Write(DpPixelFormat, r.regs)]
  {
    var after := regs.(dp := regs.dp.(pixelFormat := DpPixelFormatFor(t)));
    EncState(after, [Write(DpPixelFormat, after)])
  }

  // ---------------------------------------------------------------------
  // The BIOS encoder-control call shared by HDMI and DVI

  /** The signal types the TMDS paths announce. */
  datatype SignalType = HdmiTypeA | DviSingleLink | DviDualLink

  /** `bp_encoder_control` with action `ENCODER_CONTROL_SETUP`. */
  datatype EncoderControl = EncoderControl(
    engineId: nat, signal: SignalType, enableDpAudio: bool, pixelClockKhz: int, lanes: nat, colorDepth: ColorDepth)

  /**
   * A constructed stream encoder: its engine and the BIOS encoder-control
   * service, which answers whether a request succeeded (`BP_RESULT_OK`).
   */
  datatype StreamEncoder = StreamEncoder(id: nat, encoderControl: BiosEncoderControl)

  /** The BIOS `encoder_control` service: whether the request returned `BP_RESULT_OK`. */
  type BiosEncoderControl = EncoderControl -> bool

  /**
   * `dce80_stream_encoder_construct`: fails without an encoder object (`present`) or a
   * BIOS service; otherwise records the engine and the service.
   */
  function Construct(present: bool, bios: Option<BiosEncoderControl>, engineId: nat): (r: Option<StreamEncoder>)
    ensures r.Some? <==> present && bios.Some?
    ensures r.Some? ==> r.value.id == engineId && r.value.encoderControl == bios.value
  {
    if !present || bios.None? then None
    else Some(StreamEncoder(engineId, bios.value))
  }

  /** `TMDS_PIXEL_ENCODING`: 1 for YCbCr 4:2:2, 0 otherwise. */
  function TmdsPixelEncoding(e: PixelEncoding): (r: nat)
    ensures r == 1 <==> e == YCbCr422
    ensures r <= 1
  {
    if e == YCbCr422 then 1 else 0
  }

  // ---------------------------------------------------------------------
  // HDMI

  /** The encoder-control request of `hdmi_set_stream_attribute`. */
  function HdmiControlRequest(enc: StreamEncoder, t: CrtcTiming, actualPixClkKhz: int, enableAudio: bool): EncoderControl {
    EncoderControl(enc.id, HdmiTypeA, enableAudio, actualPixClkKhz, 4, t.colorDepth)
  }

  /**
   * `HDMI_CONTROL` after the deep-colour set-up: packet generator version
   * 1, keep-out mode 1, deep colour enabled with depth code 1, 2 or 3 for
   * 10, 12 and 16 bpc, depth code 0 for 8 bpc, and for any other depth
   * deep colour off with the depth field left as it was.
   */
  function HdmiDeepColor(before: HdmiControlFields, d: ColorDepth): (r: HdmiControlFields)
    ensures r.packetGenVersion == 1 && r.keepoutMode == 1
    ensures r.deepColorEnable == 1 <==> d in {Depth101010, Depth121212, Depth161616}
    ensures r.deepColorEnable <= 1
    ensures d !in {Depth888, Depth101010, Depth121212, Depth161616} ==> r.deepColorDepth == before.deepColorDepth
  {
    var base := before.(packetGenVersion := 1, keepoutMode := 1, deepColorEnable := 0);
    match d
    case Depth888 => base.(deepColorDepth := 0)
    case Depth101010 => base.(deepColorDepth := 1, deepColorEnable := 1)
    case Depth121212 => base.(deepColorDepth := 2, deepColorEnable := 1)
    case Depth161616 => base.(deepColorDepth := 3, deepColorEnable := 1)
    case _ => base
  }

  /** The bits per component an HDMI sink receives for a deep-colour setting (8 when deep colour is off). */
  function HdmiTransmittedBpc(c: HdmiControlFields): nat {
    if c.deepColorEnable == 0 then 8
    else if c.deepColorDepth == 1 then 10
    else if c.deepColorDepth == 2 then 12
    else if c.deepColorDepth == 3 then 16
    else 8
  }

  /**
   * The deep-colour setting carries the timing's depth for every depth
   * HDMI deep colour supports; the others (6 and 14 bpc, undefined) go out
   * at 8 bpc.
   */
  lemma HdmiDepthRoundTrip(before: HdmiControlFields, d: ColorDepth)
    ensures d in {Depth888, Depth101010, Depth121212, Depth161616} ==>
              Some(HdmiTransmittedBpc(HdmiDeepColor(before, d))) == BitsPerComponent(d)
    ensures d !in {Depth888, Depth101010, Depth121212, Depth161616} ==>
              HdmiTransmittedBpc(HdmiDeepColor(before, d)) == 8
  {
  }

  /** The registers `hdmi_set_stream_attribute` writes, in order. */
  const HdmiAttributeWrites: seq<Reg> :=
    [TmdsCntl, HdmiControl, HdmiVbiPacketControl, HdmiInfoframeControl0, AfmtInfoframeControl0,
     HdmiInfoframeControl1, HdmiGc]

  /**
   * `hdmi_set_stream_attribute`: ask the BIOS to set the encoder up for
   * HDMI type A on four lanes; if it refuses, nothing is written. Otherwise
   * program TMDS, the HDMI engine and deep colour, the general-control and
   * null packets, and the audio info frame (sent on line 2), and clear the
   * AV mute.
   */
  method HdmiSetStreamAttribute(enc: StreamEncoder, regs: Regs, t: CrtcTiming, actualPixClkKhz: int, enableAudio: bool)
    returns (ok: bool, r: EncState)
    ensures ok == enc.encoderControl(HdmiControlRequest(enc, t, actualPixClkKhz, enableAudio))
    ensures !ok ==> r == EncState(regs, [])
    ensures ok ==> WritesIn(r.writes, HdmiAttributeWrites)
    ensures ok ==>
              var h := r.regs.hdmi;
              h.tmdsCntl == TmdsCntlFields(TmdsPixelEncoding(t.pixelEncoding), 0) &&
              h.hdmiControl == HdmiDeepColor(regs.hdmi.hdmiControl, t.colorDepth) &&
              h.vbiPacketControl == HdmiVbiPacketControlFields(1, 1, 1) &&
              h.infoframeControl0 == regs.hdmi.infoframeControl0.(audioInfoSend := 1) &&
              h.afmtAudioInfoUpdate == 1 &&
              h.infoframeControl1 == regs.hdmi.infoframeControl1.(audioInfoLine := 2) &&
              h.gcAvmute == 0 &&
              h.avi == regs.hdmi.avi
    ensures r.regs.packets == regs.packets && r.regs.dp == regs.dp && r.regs.digStart == regs.digStart
  {
    ok := enc.encoderControl(HdmiControlRequest(enc, t, actualPixClkKhz, enableAudio));
    if !ok {
      r := EncState(regs, []);
      return;
    }
    var h := regs.hdmi;
    h := h.(tmdsCntl := h.tmdsCntl.(pixelEncoding := TmdsPixelEncoding(t.pixelEncoding), colorFormat := 0));
    var r1 := regs.(hdmi := h);
    h := h.(hdmiControl := HdmiDeepColor(h.hdmiControl, t.colorDepth));
    var r2 := regs.(hdmi := h);
    h := h.(vbiPacketControl := HdmiVbiPacketControlFields(1, 1, 1));
    var r3 := regs.(hdmi := h);
    h := h.(infoframeControl0 := h.infoframeControl0.(audioInfoSend := 1));
    var r4 := regs.(hdmi := h);
    h := h.(afmtAudioInfoUpdate := 1);
    var r5 := regs.(hdmi := h);
    h := h.(infoframeControl1 := h.infoframeControl1.(audioInfoLine := 2));
    var r6 := regs.(hdmi := h);
    h := h.(gcAvmute := 0);
    var r7 := regs.(hdmi := h);
    r := EncState(r7, [Write(TmdsCntl, r1), Write(HdmiControl, r2), Write(HdmiVbiPacketControl, r3),
                       Write(HdmiInfoframeControl0, r4), Write(AfmtInfoframeControl0, r5),
                       Write(HdmiInfoframeControl1, r6), Write(HdmiGc, r7)]);
  }

  // ---------------------------------------------------------------------
  // DVI

  /** The encoder-control request of `dvi_set_stream_attribute`: four lanes single link, eight dual link, no audio. */
  function DviControlRequest(enc: StreamEncoder, t: CrtcTiming, dualLink: bool): (c: EncoderControl)
    ensures c.lanes == (if dualLink then 8 else 4) && !c.enableDpAudio && c.pixelClockKhz == t.pixClkKhz
    ensures c.signal == (if dualLink then DviDualLink else DviSingleLink)
    ensures c.engineId == enc.id && c.colorDepth == DepthUndefined
  {
    EncoderControl(enc.id, if dualLink then DviDualLink else DviSingleLink, false, t.pixClkKhz,
                   if dualLink then 8 else 4, DepthUndefined)
  }

  /**
   * `TMDS_COLOR_FORMAT` as the DVI path computes it: the switch is on the
   * pixel encoding but its case label is the colour depth 10 bpc, whose
   * value is that of YCbCr 4:4:4, so the inner test for RGB never holds.
   */
  function DviColorFormatAsWritten(t: CrtcTiming): (r: nat)
    ensures r == 0
  {
    if EncodingCode(t.pixelEncoding) == DepthCode(Depth101010) then
      (if t.pixelEncoding == Rgb then 2 else 0)
    else 0
  }

  /** `TMDS_COLOR_FORMAT` as intended: 2 for 10-bpc RGB, 0 otherwise. */
  function DviColorFormat(t: CrtcTiming): (r: nat)
    ensures r == 2 <==> t.colorDepth == Depth101010 && t.pixelEncoding == Rgb
    ensures r != 2 ==> r == 0
  {
    match t.colorDepth
    case Depth101010 => if t.pixelEncoding == Rgb then 2 else 0
    case _ => 0
  }

  /** A 10-bpc RGB timing gets colour format 2 as intended but 0 as written. */
  lemma DviColorFormatDiscrepancy()
    ensures var t := CrtcTiming(Rgb, Depth101010, false, 148500);
            DviColorFormat(t) == 2 && DviColorFormatAsWritten(t) == 0
  {
  }

  /**
   * `dvi_set_stream_attribute`, with the colour format as intended: ask the
   * BIOS to set the encoder up for single- or dual-link DVI; if it refuses
   * nothing is written, otherwise `TMDS_CNTL` is written once.
   */
  function DviSetStreamAttribute(enc: StreamEncoder, regs: Regs, t: CrtcTiming, dualLink: bool): (r: (bool, EncState))
    ensures r.0 == enc.encoderControl(DviControlRequest(enc, t, dualLink))
    ensures !r.0 ==> r.1 == EncState(regs, [])
    ensures r.0 ==>
              r.1.regs == regs.(hdmi := regs.hdmi.(tmdsCntl := TmdsCntlFields(TmdsPixelEncoding(t.pixelEncoding),
                                                                               DviColorFormat(t)))) &&
              r.1.writes == [Write(TmdsCntl, r.1.regs)]
  {
    if !enc.encoderControl(DviControlRequest(enc, t, dualLink)) then (false, EncState(regs, []))
    else
      var after := regs.(hdmi := regs.hdmi.(tmdsCntl := TmdsCntlFields(TmdsPixelEncoding(t.pixelEncoding),
                                                                       DviColorFormat(t))));
      (true, EncState(after, [Write(TmdsCntl, after)]))
  }

  /** `dvi_set_stream_attribute` as written: the same, with the colour format always 0. */
  function DviSetStreamAttributeAsWritten(enc: StreamEncoder, regs: Regs, t: CrtcTiming, dualLink: bool): (r: (bool, EncState))
    ensures r.0 == DviSetStreamAttribute(enc, regs, t, dualLink).0
    ensures r.0 == enc.encoderControl(DviControlRequest(enc, t, dualLink))
    ensures !r.0 ==> r.1 == EncState(regs, [])
    ensures r.0 ==>
              r.1.regs == regs.(hdmi := regs.hdmi.(tmdsCntl := TmdsCntlFields(TmdsPixelEncoding(t.pixelEncoding), 0))) &&
              r.1.writes == [Write(TmdsCntl, r.1.regs)]
  {
    if !enc.encoderControl(DviControlRequest(enc, t, dualLink)) then (false, EncState(regs, []))
    else
      var after := regs.(hdmi := regs.hdmi.(tmdsCntl := TmdsCntlFields(TmdsPixelEncoding(t.pixelEncoding),
                                                                       DviColorFormatAsWritten(t))));
      (true, EncState(after, [Write(TmdsCntl, after)]))
  }

  /** The two DVI set-ups differ exactly on 10-bpc RGB timings. */
  lemma DviAsWrittenDiffersOnlyOn10BitRgb(enc: StreamEncoder, regs: Regs, t: CrtcTiming, dualLink: bool)
    requires enc.encoderControl(DviControlRequest(enc, t, dualLink))
    ensures DviSetStreamAttributeAsWritten(enc, regs, t, dualLink) != DviSetStreamAttribute(enc, regs, t, dualLink)
            <==> t.colorDepth == Depth101010 && t.pixelEncoding == Rgb
  {
    var w := DviSetStreamAttributeAsWritten(enc, regs, t, dualLink);
    var c := DviSetStreamAttribute(enc, regs, t, dualLink);
    if t.colorDepth == Depth101010 && t.pixelEncoding == Rgb {
      assert w.1.regs.hdmi.tmdsCntl.colorFormat != c.1.regs.hdmi.tmdsCntl.colorFormat;
    }
  }
}

=== FILE: encoder_dp.dfy ===
/**
 * The DisplayPort video-stream control of the DCE 8.0 stream encoder:
 * blanking with its bounded status poll, unblanking with the initial M/N
 * values, and the MST time-slot rate.
 *
 * A status register the encoder polls is an input: `busy(i)` is the
 * status bit seen on the `i`-th read. The 10 us delays between reads are
 * not modelled.
 */
module DpStream {
  import opened Ints
  import opened EncoderRegs

  /** Reads of `DP_VID_STREAM_STATUS` before blanking gives up: `DP_BLANK_MAX_RETRY` (20) times 150. */
  const BlankMaxRetries: nat := 3000

  /** Reads of `DP_MSE_RATE_UPDATE_PENDING` before the MST rate update gives up. */
  const MstUpdateMaxRetries: nat := 50

  /**
   * The polling loop shared by blanking and the MST rate update: read,
   * stop when the status bit is clear, otherwise count a retry, until the
   * retry limit. `count` is the number of reads made.
   */
  method PollStatus(maxRetries: nat, busy: nat -> bool) returns (retries: nat, count: nat)
    requires maxRetries >= 1
    ensures 1 <= count <= maxRetries && retries <= maxRetries
    ensures forall i | 0 <= i < count - 1 :: busy(i)
    ensures !busy(count - 1) ==> retries == count - 1
    ensures busy(count - 1) ==> retries == count == maxRetries
    ensures forall k | 0 <= k < maxRetries && !busy(k) :: count - 1 <= k
  {
    retries := 0;
    count := 0;
    while true
      invariant retries == count < maxRetries
      invariant forall i | 0 <= i < count :: busy(i)
      decreases maxRetries - count
    {
      var status := busy(count);
      count := count + 1;
      if !status {
        return;
      }
      retries := retries + 1;
      if retries >= maxRetries {
        return;
      }
    }
  }

  /** The registers `dp_blank` accesses, in order. */
  const BlankAccesses: seq<Reg> := [DpVidStreamCntl, DpVidStreamCntl, DpSteerFifo]

  /**
   * `dp_blank`: disable the video stream, deferred to the start of the
   * next vertical blank; wait (at most 3000 reads) for the stream status
   * to clear; only then reset the steering FIFO, so that the encoder
   * ignores the CRTC timing. Resetting the FIFO before the stream has
   * stopped would leave the status stuck.
   */
  method DpBlank(regs: Regs, busy: nat -> bool) returns (r: EncState)
    ensures Trace(r.writes) == BlankAccesses
    ensures r.writes[0].Write? && r.writes[0].after.dp.vidStreamCntl == DpVidStreamCntlFields(2, false)
    ensures r.writes[1].Poll? && 1 <= r.writes[1].count <= BlankMaxRetries
    ensures forall i | 0 <= i < r.writes[1].count - 1 :: busy(i)
    ensures r.writes[1].count < BlankMaxRetries ==> !busy(r.writes[1].count - 1)
    ensures r.writes[2].Write? && r.writes[2].after == r.regs
    ensures r.regs.dp == regs.dp.(vidStreamCntl := DpVidStreamCntlFields(2, false), steerFifoReset := true)
    ensures r.regs == regs.(dp := r.regs.dp)
  {
    var r1 := regs.(dp := regs.dp.(vidStreamCntl := regs.dp.vidStreamCntl.(disDefer := 2, enable := false)));
    var retries, count := PollStatus(BlankMaxRetries, busy);
    var r2 := r1.(dp := r1.dp.(steerFifoReset := true));
    r := EncState(r2, [Write(DpVidStreamCntl, r1), Poll(DpVidStreamCntl, count), Write(DpSteerFifo, r2)]);
  }

  /** `dc_link_rate`: the DisplayPort link rates, in units of 0.27 Gbps per lane. */
  datatype LinkRate = RateUnknown | RateLow | RateHigh | RateHigh2

  /** The link rate as the multiple of the 27 MHz reference (the `LINK_BW_SET` code of DisplayPort). */
  function RateCode(l: LinkRate): (r: nat)
    ensures r == 0 <==> l == RateUnknown
    ensures l != RateUnknown ==> 6 <= r <= 0x14
  {
    match l
    case RateUnknown => 0
    case RateLow => 0x06
    case RateHigh => 0x0A
    case RateHigh2 => 0x14
  }

  /** `LINK_RATE_REF_FREQ_IN_KHZ`. */
  const RefFreqKhz: nat := 27000

  /** The `N` value programmed before auto measurement takes over. */
  const NVid: U32 := 0x8000

  /**
   * The initial `M` value: the 64-bit quotient of `N` times the pixel
   * clock by the link symbol rate, truncated to `uint32_t`.
   */
  function MVid(pixClkKhz: U32, rate: LinkRate): U32
    requires rate != RateUnknown
  {
    WrapU32(NVid * pixClkKhz / (RateCode(rate) * RefFreqKhz))
  }

  /**
   * `M / N` is the pixel rate over the link symbol rate, rounded down:
   * the truncation to 32 bits never changes the quotient.
   */
  lemma MVidRatio(pixClkKhz: U32, rate: LinkRate)
    requires rate != RateUnknown
    ensures var m, d := MVid(pixClkKhz, rate), RateCode(rate) * RefFreqKhz;
            m * d <= NVid * pixClkKhz < (m + 1) * d
  {
    MVidFits(pixClkKhz, rate);
  }

  /**
   * For every 32-bit pixel clock and known link rate the quotient already
   * fits in 32 bits, so the truncation to `uint32_t` loses nothing.
   */
  lemma MVidFits(pixClkKhz: U32, rate: LinkRate)
    requires rate != RateUnknown
    ensures NVid * pixClkKhz / (RateCode(rate) * RefFreqKhz) < Two32
  {
    var d := RateCode(rate) * RefFreqKhz;
    var a := NVid * pixClkKhz;
    var q := a / d;
    assert q * d <= a;
    assert a < 0x8000 * Two32;
  }

  /** The registers written to program `M` and `N` for a known link rate. */
  const MnWrites: seq<Reg> := [DpVidTiming, DpVidN, DpVidM, DpVidTiming]

  /** The registers `dp_unblank` writes, in order: `M` and `N` only for a known rate. */
  function UnblankWrites(rate: LinkRate): seq<Reg> {
    (if rate == RateUnknown then [] else MnWrites) + [DigFeCntl, DpSteerFifo, DpVidStreamCntl]
  }

  /**
   * Auto measurement is off while `N` and then `M` are written and on
   * again after them: the first write stops it, the second sets `N`, the
   * third sets `M`, the fourth restarts it.
   */
  predicate MnOrder(ws: seq<Access>, m: U32)
    requires |ws| == 4 && forall j | 0 <= j < 4 :: ws[j].Write?
  {
    !ws[0].after.dp.vidMnGenEn && !ws[1].after.dp.vidMnGenEn && !ws[2].after.dp.vidMnGenEn &&
    ws[1].after.dp.vidN == NVid && ws[2].after.dp.vidM == m && ws[3].after.dp.vidMnGenEn
  }

  /**
   * The `M`/`N` half of `dp_unblank`: stop auto measurement, write `N`
   * then `M`, and restart measurement, in that order.
   */
  method ProgramMn(regs: Regs, m: U32) returns (r: EncState)
    ensures WritesIn(r.writes, MnWrites) && MnOrder(r.writes, m) && r.writes[3].after == r.regs
    ensures r.regs == regs.(dp := regs.dp.(vidN := NVid, vidM := m, vidMnGenEn := true))
  {
    var d1 := regs.dp.(vidMnGenEn := false);
    var d2 := d1.(vidN := NVid);
    var d3 := d2.(vidM := m);
    var d4 := d3.(vidMnGenEn := true);
    var r1, r2, r3, r4 := regs.(dp := d1), regs.(dp := d2), regs.(dp := d3), regs.(dp := d4);
    r := EncState(r4, [Write(DpVidTiming, r1), Write(DpVidN, r2), Write(DpVidM, r3), Write(DpVidTiming, r4)]);
  }

  /** The rest of `dp_unblank`: restart the FIFO's input from the CRTC and enable the stream, last. */
  method RestartStream(regs: Regs) returns (r: EncState)
    ensures WritesIn(r.writes, [DigFeCntl, DpSteerFifo, DpVidStreamCntl])
    ensures r.regs == regs.(digStart := 1, dp := regs.dp.(steerFifoReset := false,
                            vidStreamCntl := regs.dp.vidStreamCntl.(enable := true)))
  {
    var r5 := regs.(digStart := 1);
    var r6 := r5.(dp := r5.dp.(steerFifoReset := false));
    var r7 := r6.(dp := r6.dp.(vidStreamCntl := r6.dp.vidStreamCntl.(enable := true)));
    r := EncState(r7, [Write(DigFeCntl, r5), Write(DpSteerFifo, r6), Write(DpVidStreamCntl, r7)]);
  }

  /**
   * `dp_unblank`: for a known link rate program `N` = 0x8000 and the
   * matching `M`; with an unknown rate `M` and `N` are left alone. Then
   * restart the FIFO, switch the encoder back to CRTC data, and enable
   * the video stream, after everything else.
   */
  method DpUnblank(regs: Regs, pixClkKhz: U32, rate: LinkRate) returns (r: EncState)
    ensures WritesIn(r.writes, UnblankWrites(rate))
    ensures rate != RateUnknown ==> MnOrder(r.writes[..4], MVid(pixClkKhz, rate))
    ensures rate != RateUnknown ==>
              r.regs == regs.(digStart := 1,
                              dp := regs.dp.(vidN := NVid, vidM := MVid(pixClkKhz, rate), vidMnGenEn := true,
                                             steerFifoReset := false,
                                             vidStreamCntl := regs.dp.vidStreamCntl.(enable := true)))
    ensures rate == RateUnknown ==>
              r.regs == regs.(digStart := 1,
                              dp := regs.dp.(steerFifoReset := false,
                                             vidStreamCntl := regs.dp.vidStreamCntl.(enable := true)))
  {
    if rate == RateUnknown {
      r := RestartStream(regs);
      assert r.writes == [] + r.writes;
    } else {
      var mn := ProgramMn(regs, MVid(pixClkKhz, rate));
      var rest := RestartStream(mn.regs);
      WritesInConcat(mn.writes, MnWrites, rest.writes, [DigFeCntl, DpSteerFifo, DpVidStreamCntl]);
      r := EncState(rest.regs, mn.writes + rest.writes);
      assert r.writes[..4] == mn.writes;
    }
  }

  /**
   * The MST rate from `avg_time_slots_per_mtp`, a 31.32 fixed-point value
   * given by its raw 64-bit representation: `x` is its integer part and
   * `y` its fraction in units of 2^-26, rounded up.
   */
  function MseRate(rawSlots: nat): (r: MseRateFields)
    requires rawSlots < 0x8000_0000_0000_0000
    ensures r.rateX * 0x1_0000_0000 + r.rateY * 64 >= rawSlots
    ensures r.rateX * 0x1_0000_0000 + r.rateY * 64 < rawSlots + 64
    ensures r.rateY <= 0x400_0000
  {
    var x := rawSlots / 0x1_0000_0000;
    var frac := rawSlots % 0x1_0000_0000;
    MseRateFields(x, (frac + 63) / 64)
  }

  /**
   * `set_mst_bandwidth`: write the rate, then wait (at most 50 reads) for
   * the update-pending bit to clear.
   */
  method SetMstBandwidth(regs: Regs, rawSlots: nat, pending: nat -> bool) returns (r: EncState)
    requires rawSlots < 0x8000_0000_0000_0000
    ensures Trace(r.writes) == [DpMseRateCntl, DpMseRateUpdate]
    ensures r.writes[0].Write? && r.writes[0].after == r.regs
    ensures r.regs == regs.(dp := regs.dp.(mseRate := MseRate(rawSlots)))
    ensures r.writes[1].Poll? && 1 <= r.writes[1].count <= MstUpdateMaxRetries
    ensures forall i | 0 <= i < r.writes[1].count - 1 :: pending(i)
    ensures r.writes[1].count < MstUpdateMaxRetries ==> !pending(r.writes[1].count - 1)
  {
    var r1 := regs.(dp := regs.dp.(mseRate := MseRate(rawSlots)));
    var retries, count := PollStatus(MstUpdateMaxRetries, pending);
    r := EncState(r1, [Write(DpMseRateCntl, r1), Poll(DpMseRateUpdate, count)]);
  }
}

=== FILE: encoder_packets.dfy ===
/**
 * Info packets of the DCE 8.0 stream encoder: the generic packet registers,
 * HDMI packet transmission control, and the DP secondary-data-packet
 * enables with their master-enable rule.
 */
module InfoPackets {
  import opened Ints
  import opened EncoderRegs

  /** The 28 payload bytes of an info packet. */
  type Payload = s: seq<U8> | |s| == 28 witness seq(28, _ => 0)

  /** `encoder_info_packet`: whether it is to be sent, four header bytes and the payload. */
  datatype InfoPacket = InfoPacket(valid: bool, hb0: U8, hb1: U8, hb2: U8, hb3: U8, sb: Payload)

  /** `encoder_info_frame`: the packets the HDMI and DP paths send. */
  datatype InfoFrame = InfoFrame(avi: InfoPacket, vendor: InfoPacket, gamut: InfoPacket, spd: InfoPacket, vsc: InfoPacket)

  /** Four bytes read as one little-endian 32-bit word. */
  function LeWord(b0: U8, b1: U8, b2: U8, b3: U8): U32 {
    b0 + 0x100 * (b1 + 0x100 * (b2 + 0x100 * b3))
  }

  /** Payload word `k`: bytes `4k .. 4k+3` read as one little-endian word (the `uint32_t` view of `sb`). */
  function PayloadWord(sb: Payload, k: nat): U32
    requires k < 7
  {
    LeWord(sb[4 * k], sb[4 * k + 1], sb[4 * k + 2], sb[4 * k + 3])
  }

  /** Byte `i` (0 = least significant) of a word. */
  function ByteOf(w: nat, i: nat): U8
    decreases i
  {
    if i == 0 then w % 0x100 else ByteOf(w / 0x100, i - 1)
  }

  /** The 28 payload bytes held by the first seven generic words. */
  function PayloadOf(words: GenericWords): (r: seq<U8>)
    ensures |r| == 28
  {
    seq(28, n requires 0 <= n < 28 => ByteOf(words[n / 4], n % 4))
  }

  /** The header held by the generic header register, as a packet's four header bytes. */
  function HeaderOf(p: PacketRegs): (U8, U8, U8, U8) {
    (p.genericHeader.hb0, p.genericHeader.hb1, p.genericHeader.hb2, p.genericHeader.hb3)
  }

  /** The register file with the packet block replaced. */
  function WithPackets(regs: Regs, p: PacketRegs): Regs {
    regs.(packets := p)
  }

  lemma SplitByte(a: int, q: int)
    requires 0 <= a < 0x100 && q >= 0
    ensures (a + 0x100 * q) % 0x100 == a && (a + 0x100 * q) / 0x100 == q
  {
  }

  /** Reading a little-endian word back byte by byte gives the bytes it was built from. */
  lemma LeWordBytes(b0: U8, b1: U8, b2: U8, b3: U8)
    ensures ByteOf(LeWord(b0, b1, b2, b3), 0) == b0
    ensures ByteOf(LeWord(b0, b1, b2, b3), 1) == b1
    ensures ByteOf(LeWord(b0, b1, b2, b3), 2) == b2
    ensures ByteOf(LeWord(b0, b1, b2, b3), 3) == b3
  {
    var w2 := b2 + 0x100 * b3;
    var w1 := b1 + 0x100 * w2;
    var w0 := b0 + 0x100 * w1;
    SplitByte(b0, w1);
    SplitByte(b1, w2);
    SplitByte(b2, b3);
    assert ByteOf(w0, 1) == ByteOf(w1, 0);
    assert ByteOf(w0, 2) == ByteOf(w1, 1) == ByteOf(w2, 0);
    assert ByteOf(w0, 3) == ByteOf(w1, 2) == ByteOf(w2, 1) == ByteOf(b3, 0);
  }

  /**
   * Generic words 0 .. 6 carry the payload: the first 28 bytes read back
   * from them are the payload bytes.
   */
  lemma PayloadReadBack(words: GenericWords, sb: Payload)
    requires forall k | 0 <= k < 7 :: words[k] == PayloadWord(sb, k)
    ensures PayloadOf(words) == sb
  {
    forall n | 0 <= n < 28
      ensures PayloadOf(words)[n] == sb[n]
    {
      var k := n / 4;
      assert words[k] == PayloadWord(sb, k);
      LeWordBytes(sb[4 * k], sb[4 * k + 1], sb[4 * k + 2], sb[4 * k + 3]);
    }
  }

  /** The generic words in order, `AFMT_GENERIC_0` .. `AFMT_GENERIC_7`. */
  const GenericWordRegs: seq<Reg> :=
    [AfmtGeneric(0), AfmtGeneric(1), AfmtGeneric(2), AfmtGeneric(3),
     AfmtGeneric(4), AfmtGeneric(5), AfmtGeneric(6), AfmtGeneric(7)]

  /**
   * The payload part of `update_generic_info_packet`: the content loop
   * writes payload words 0 .. 6 to generic words 0 .. 6, then the last
   * word is cleared.
   */
  method LoadPayload(regs: Regs, sb: Payload) returns (r: EncState)
    ensures WritesIn(r.writes, GenericWordRegs)
    ensures forall k | 0 <= k < 7 :: r.regs.packets.generic[k] == PayloadWord(sb, k)
    ensures r.regs.packets.generic[7] == 0
    ensures r.regs == WithPackets(regs, regs.packets.(generic := r.regs.packets.generic))
    ensures forall j | 0 <= j < |r.writes| :: r.writes[j].after.packets.vbiPacketControl == regs.packets.vbiPacketControl
  {
    var cur := regs;
    var writes: seq<Access> := [];
    var counter := 0;
    while counter < 7
      invariant counter <= 7 && |writes| == counter
      invariant forall j | 0 <= j < counter :: writes[j].Write? && writes[j].reg == AfmtGeneric(j)
      invariant forall k | 0 <= k < counter :: cur.packets.generic[k] == PayloadWord(sb, k)
      invariant cur == WithPackets(regs, regs.packets.(generic := cur.packets.generic))
      invariant forall j | 0 <= j < counter :: writes[j].after.packets.vbiPacketControl == regs.packets.vbiPacketControl
    {
      cur := WithPackets(cur, cur.packets.(generic := cur.packets.generic[counter := PayloadWord(sb, counter)]));
      writes := writes + [Write(AfmtGeneric(counter), cur)];
      counter := counter + 1;
    }
    cur := WithPackets(cur, cur.packets.(generic := cur.packets.generic[7 := 0]));
    writes := writes + [Write(AfmtGeneric(7), cur)];
    r := EncState(cur, writes);
  }

  /** The registers `update_generic_info_packet` writes, in order. */
  const GenericPacketWrites: seq<Reg> := [AfmtVbiPacketControl, AfmtGenericHdr] + GenericWordRegs + [AfmtVbiPacketControl]

  /**
   * The packet block holds generic packet `index` loaded with `pkt`:
   * selected, its header and payload in place, the last word zero, and
   * the update of packet 0 or 2 requested.
   */
  predicate PacketLoaded(p: PacketRegs, index: U32, pkt: InfoPacket) {
    p.vbiPacketControl == VbiPacketControlFields(index, index == 0, index == 2) &&
    HeaderOf(p) == (pkt.hb0, pkt.hb1, pkt.hb2, pkt.hb3) &&
    PayloadOf(p.generic) == pkt.sb &&
    p.generic[7] == 0
  }

  /**
   * `update_generic_info_packet`: select the packet, write its header, its
   * seven payload words and a zero last word, then request the
   * double-buffered update of packet 0 or 2. The packet is selected before
   * anything of it is written, so the header and payload land in packet
   * `index`; what is read back is the packet that was written.
   */
  method UpdateGenericInfoPacket(regs: Regs, index: U32, pkt: InfoPacket) returns (r: EncState)
    ensures WritesIn(r.writes, GenericPacketWrites)
    ensures forall j | 0 <= j < |r.writes| :: r.writes[j].after.packets.vbiPacketControl.genericIndex == index
    ensures PacketLoaded(r.regs.packets, index, pkt)
    ensures r.regs == WithPackets(regs, regs.packets.(vbiPacketControl := r.regs.packets.vbiPacketControl,
                                                      genericHeader := r.regs.packets.genericHeader,
                                                      generic := r.regs.packets.generic))
  {
    var p := regs.packets;
    var r1 := WithPackets(regs, p.(vbiPacketControl := p.vbiPacketControl.(genericIndex := index)));
    var r2 := WithPackets(r1, r1.packets.(genericHeader := GenericHeaderFields(pkt.hb0, pkt.hb1, pkt.hb2, pkt.hb3)));
    var payload := LoadPayload(r2, pkt.sb);
    PayloadReadBack(payload.regs.packets.generic, pkt.sb);
    var q := payload.regs.packets;
    var r5 := WithPackets(payload.regs, q.(vbiPacketControl := q.vbiPacketControl.(
                                             generic0Update := index == 0, generic2Update := index == 2)));
    var head := [Write(AfmtVbiPacketControl, r1), Write(AfmtGenericHdr, r2)];
    var tail := [Write(AfmtVbiPacketControl, r5)];
    assert WritesIn(head, [AfmtVbiPacketControl, AfmtGenericHdr]);
    assert WritesIn(tail, [AfmtVbiPacketControl]);
    WritesInConcat(head, [AfmtVbiPacketControl, AfmtGenericHdr], payload.writes, GenericWordRegs);
    WritesInConcat(head + payload.writes, [AfmtVbiPacketControl, AfmtGenericHdr] + GenericWordRegs,
                   tail, [AfmtVbiPacketControl]);
    r := EncState(r5, head + payload.writes + tail);
    forall j | 0 <= j < |r.writes| ensures r.writes[j].after.packets.vbiPacketControl.genericIndex == index {
      if 2 <= j < 10 {
        assert r.writes[j] == payload.writes[j - 2];
      }
    }
  }

  /** The transmission control of a packet slot: every frame on line 2 when valid, off otherwise. */
  function SlotFor(valid: bool): (s: PacketSlot)
    ensures valid <==> s.send == 1
    ensures valid ==> s.cont == 1 && s.line == 2
    ensures !valid ==> s.cont == 0 && s.line == 0
  {
    if valid then PacketSlot(1, 1, 2) else PacketSlot(0, 0, 0)
  }

  /** The packet-control register an index selects: 0 and 1 share one, 2 and 3 the other, others none. */
  function ControlRegFor(index: U32): Reg {
    if index <= 1 then HdmiGenericPacketControl0
    else if index <= 3 then HdmiGenericPacketControl1
    else RegisterZero
  }

  /**
   * The packet slots after programming packet `index`: its own slot is set
   * from `valid` and the other three keep their value.
   */
  predicate SlotsAfter(before: PacketRegs, after: PacketRegs, index: U32, valid: bool) {
    after.genericControl0.slot0 == (if index == 0 then SlotFor(valid) else before.genericControl0.slot0) &&
    after.genericControl0.slot1 == (if index == 1 then SlotFor(valid) else before.genericControl0.slot1) &&
    after.genericControl1.slot0 == (if index == 2 then SlotFor(valid) else before.genericControl1.slot0) &&
    after.genericControl1.slot1 == (if index == 3 then SlotFor(valid) else before.genericControl1.slot1)
  }

  /**
   * `update_hdmi_info_packet`: load a valid packet into generic packet
   * `index`, then program the slot of `index` in the HDMI generic packet
   * control: packets 0 and 1 live in `CONTROL0`, 2 and 3 in `CONTROL1`,
   * even ones in the first slot and odd ones in the second. Any other index
   * selects no register: address 0 is read and written back unchanged, so
   * address 0 is written exactly when the index is out of range.
   */
  method UpdateHdmiInfoPacket(regs: Regs, index: U32, pkt: InfoPacket) returns (r: EncState)
    ensures WritesIn(r.writes, (if pkt.valid then GenericPacketWrites else []) + [ControlRegFor(index)])
    ensures r.writes[|r.writes| - 1].after == r.regs
    ensures SlotsAfter(regs.packets, r.regs.packets, index, pkt.valid)
    ensures r.regs.packets.address0 == regs.packets.address0
    ensures pkt.valid ==> PacketLoaded(r.regs.packets, index, pkt)
    ensures !pkt.valid ==> r.regs.packets == regs.packets.(genericControl0 := r.regs.packets.genericControl0,
                                                           genericControl1 := r.regs.packets.genericControl1)
    ensures r.regs == WithPackets(regs, r.regs.packets)
    ensures AvoidsRegisterZero(r.writes) <==> index <= 3
  {
    var g := EncState(regs, []);
    if pkt.valid {
      g := UpdateGenericInfoPacket(regs, index, pkt);
      ListedAvoidRegisterZero(g.writes, GenericPacketWrites);
    }
    var slot := SlotFor(pkt.valid);
    var p := g.regs.packets;
    var c0 := p.genericControl0;
    var c1 := p.genericControl1;
    var last :=
      if index == 0 then WithPackets(g.regs, p.(genericControl0 := c0.(slot0 := slot)))
      else if index == 1 then WithPackets(g.regs, p.(genericControl0 := c0.(slot1 := slot)))
      else if index == 2 then WithPackets(g.regs, p.(genericControl1 := c1.(slot0 := slot)))
      else if index == 3 then WithPackets(g.regs, p.(genericControl1 := c1.(slot1 := slot)))
      else g.regs;
    var lastWrite := [Write(ControlRegFor(index), last)];
    assert WritesIn(lastWrite, [ControlRegFor(index)]);
    WritesInConcat(g.writes, if pkt.valid then GenericPacketWrites else [], lastWrite, [ControlRegFor(index)]);
    AvoidsRegisterZeroConcat(g.writes, lastWrite);
    r := EncState(last, g.writes + lastWrite);
  }

  /** The registers the AVI part of `update_hdmi_info_packets` writes when the info frame is valid. */
  const AviWrites: seq<Reg> :=
    [AfmtAviInfo(0), AfmtAviInfo(1), AfmtAviInfo(2), AfmtAviInfo(3), HdmiInfoframeControl0, HdmiInfoframeControl1]

  /**
   * The AVI part of `update_hdmi_info_packets`: a valid info frame has its
   * first four payload words loaded, the version field of the fourth
   * overwritten by header byte 1, and is sent every frame on line 2; an invalid one is switched off.
   */
  method UpdateAvi(regs: Regs, avi: InfoPacket) returns (r: EncState)
    ensures r.regs.hdmi.infoframeControl0.aviInfoSend == r.regs.hdmi.infoframeControl0.aviInfoCont ==
            (if avi.valid then 1 else 0)
    ensures avi.valid ==>
              r.regs.hdmi.infoframeControl1.aviInfoLine == 2 &&
              r.regs.hdmi.avi == AviInfoFields(PayloadWord(avi.sb, 0), PayloadWord(avi.sb, 1), PayloadWord(avi.sb, 2),
                                               WithAviVersion(PayloadWord(avi.sb, 3), avi.hb1))
    ensures WritesIn(r.writes, if avi.valid then AviWrites else [HdmiInfoframeControl0])
    ensures !avi.valid ==> r.regs.hdmi.avi == regs.hdmi.avi && r.regs.hdmi.infoframeControl1 == regs.hdmi.infoframeControl1
    ensures r.regs == regs.(hdmi := regs.hdmi.(avi := r.regs.hdmi.avi,
                                               infoframeControl0 := r.regs.hdmi.infoframeControl0,
                                               infoframeControl1 := r.regs.hdmi.infoframeControl1))
    ensures r.regs.hdmi.infoframeControl0.audioInfoSend == regs.hdmi.infoframeControl0.audioInfoSend
    ensures r.regs.hdmi.infoframeControl1.audioInfoLine == regs.hdmi.infoframeControl1.audioInfoLine
  {
    var h := regs.hdmi;
    if avi.valid {
      var r1 := regs.(hdmi := h.(avi := h.avi.(info0 := PayloadWord(avi.sb, 0))));
      var r2 := regs.(hdmi := h.(avi := r1.hdmi.avi.(info1 := PayloadWord(avi.sb, 1))));
      var r3 := regs.(hdmi := h.(avi := r2.hdmi.avi.(info2 := PayloadWord(avi.sb, 2))));
      var a4 := r3.hdmi.avi.(info3 := WithAviVersion(PayloadWord(avi.sb, 3), avi.hb1));
      var r4 := regs.(hdmi := h.(avi := a4));
      var c0 := h.infoframeControl0.(aviInfoSend := 1, aviInfoCont := 1);
      var r5 := regs.(hdmi := h.(avi := a4, infoframeControl0 := c0));
      var r6 := regs.(hdmi := h.(avi := a4, infoframeControl0 := c0,
                                 infoframeControl1 := h.infoframeControl1.(aviInfoLine := 2)));
      r := EncState(r6, [Write(AfmtAviInfo(0), r1), Write(AfmtAviInfo(1), r2), Write(AfmtAviInfo(2), r3),
                         Write(AfmtAviInfo(3), r4), Write(HdmiInfoframeControl0, r5), Write(HdmiInfoframeControl1, r6)]);
    } else {
      var r1 := regs.(hdmi := h.(infoframeControl0 := h.infoframeControl0.(aviInfoSend := 0, aviInfoCont := 0)));
      r := EncState(r1, [Write(HdmiInfoframeControl0, r1)]);
    }
  }

  /**
   * `update_hdmi_info_packets`: the AVI info frame, then the vendor, gamut
   * and SPD packets as generic packets 0, 1 and 2. The generic registers
   * are shared, so a valid vendor or gamut packet is loaded by some write
   * of the trace and overwritten by the next one; SPD's load is final. Generic packet 3's slot
   * and the DP registers are left alone, and every packet goes through a
   * routed control register, so address 0 is never written.
   */
  method UpdateHdmiInfoPackets(regs: Regs, frame: InfoFrame) returns (r: EncState)
    ensures r.regs.packets.genericControl0.slot0 == SlotFor(frame.vendor.valid)
    ensures r.regs.packets.genericControl0.slot1 == SlotFor(frame.gamut.valid)
    ensures r.regs.packets.genericControl1.slot0 == SlotFor(frame.spd.valid)
    ensures r.regs.packets.genericControl1.slot1 == regs.packets.genericControl1.slot1
    ensures r.regs.hdmi.infoframeControl0.aviInfoSend == r.regs.hdmi.infoframeControl0.aviInfoCont ==
            (if frame.avi.valid then 1 else 0)
    ensures frame.avi.valid ==>
              r.regs.hdmi.infoframeControl1.aviInfoLine == 2 && AviVersion(r.regs.hdmi.avi.info3) == frame.avi.hb1
    ensures frame.avi.valid ==>
              r.regs.hdmi.avi == AviInfoFields(PayloadWord(frame.avi.sb, 0), PayloadWord(frame.avi.sb, 1),
                                               PayloadWord(frame.avi.sb, 2),
                                               WithAviVersion(PayloadWord(frame.avi.sb, 3), frame.avi.hb1))
    ensures r.regs.hdmi == regs.hdmi.(avi := r.regs.hdmi.avi, infoframeControl0 := r.regs.hdmi.infoframeControl0,
                                      infoframeControl1 := r.regs.hdmi.infoframeControl1)
    ensures r.regs.digStart == regs.digStart
    ensures frame.vendor.valid ==>
              exists j | 0 <= j < |r.writes| :: r.writes[j].Write? && PacketLoaded(r.writes[j].after.packets, 0, frame.vendor)
    ensures frame.gamut.valid ==>
              exists j | 0 <= j < |r.writes| :: r.writes[j].Write? && PacketLoaded(r.writes[j].after.packets, 1, frame.gamut)
    ensures frame.spd.valid ==> PacketLoaded(r.regs.packets, 2, frame.spd)
    ensures r.regs.packets.address0 == regs.packets.address0 && r.regs.dp == regs.dp
    ensures AvoidsRegisterZero(r.writes)
  {
    var a := UpdateAvi(regs, frame.avi);
    ListedAvoidRegisterZero(a.writes, if frame.avi.valid then AviWrites else [HdmiInfoframeControl0]);
    var p0 := UpdateHdmiInfoPacket(a.regs, 0, frame.vendor);
    var p1 := UpdateHdmiInfoPacket(p0.regs, 1, frame.gamut);
    var p2 := UpdateHdmiInfoPacket(p1.regs, 2, frame.spd);
    AvoidsRegisterZeroConcat(a.writes, p0.writes);
    AvoidsRegisterZeroConcat(a.writes + p0.writes, p1.writes);
    AvoidsRegisterZeroConcat(a.writes + p0.writes + p1.writes, p2.writes);
    r := EncState(p2.regs, a.writes + p0.writes + p1.writes + p2.writes);
    assert r.writes[|a.writes| + |p0.writes| - 1] == p0.writes[|p0.writes| - 1];
    assert r.writes[|a.writes| + |p0.writes| + |p1.writes| - 1] == p1.writes[|p1.writes| - 1];
  }

  /**
   * `stop_hdmi_info_packets`: every generic packet slot and the AVI info
   * frame stop transmitting; the audio info frame keeps its setting.
   */
  method StopHdmiInfoPackets(regs: Regs) returns (r: EncState)
    ensures r.regs.packets.genericControl0 == r.regs.packets.genericControl1 ==
            GenericPacketControlFields(SlotFor(false), SlotFor(false))
    ensures r.regs.hdmi.infoframeControl0 == regs.hdmi.infoframeControl0.(aviInfoSend := 0, aviInfoCont := 0)
    ensures WritesIn(r.writes, [HdmiGenericPacketControl0, HdmiGenericPacketControl1, HdmiInfoframeControl0])
    ensures r.regs == regs.(packets := r.regs.packets, hdmi := regs.hdmi.(infoframeControl0 := r.regs.hdmi.infoframeControl0))
    ensures r.regs.packets == regs.packets.(genericControl0 := r.regs.packets.genericControl0,
                                            genericControl1 := r.regs.packets.genericControl1)
  {
    var off := PacketSlot(0, 0, 0);
    var r1 := WithPackets(regs, regs.packets.(genericControl0 := GenericPacketControlFields(off, off)));
    var r2 := WithPackets(r1, r1.packets.(genericControl1 := GenericPacketControlFields(off, off)));
    var r3 := r2.(hdmi := r2.hdmi.(infoframeControl0 := r2.hdmi.infoframeControl0.(aviInfoSend := 0, aviInfoCont := 0)));
    r := EncState(r3, [Write(HdmiGenericPacketControl0, r1), Write(HdmiGenericPacketControl1, r2),
                       Write(HdmiInfoframeControl0, r3)]);
  }

  /** Some packet enable or other bit of `DP_SEC_CNTL` is set, the master enable aside. */
  predicate AnyBesidesMaster(c: DpSecCntlFields) {
    c.gsp0 || c.gsp1 || c.gsp2 || c.gsp3 || c.avi || c.mpg || c.others != 0
  }

  /**
   * The master-enable rule: the secondary stream engine is on whenever any
   * other bit of the register is set (a packet enable needs the engine).
   */
  predicate MasterCovers(c: DpSecCntlFields) {
    AnyBesidesMaster(c) ==> c.streamEnable
  }

  /** Set the master enable when the register value is nonzero. */
  function ApplyMasterRule(c: DpSecCntlFields): (r: DpSecCntlFields)
    ensures r == c.(streamEnable := r.streamEnable)
    ensures r.streamEnable <==> c.streamEnable || AnyBesidesMaster(c)
    ensures MasterCovers(r)
  {
    if SecCntlNonZero(c) then c.(streamEnable := true) else c
  }

  /** Applying the rule twice is applying it once. */
  lemma MasterRuleIdempotent(c: DpSecCntlFields)
    ensures ApplyMasterRule(ApplyMasterRule(c)) == ApplyMasterRule(c)
  {
  }

  /**
   * `update_dp_info_packets`: load a valid VSC packet into generic packet
   * 0, set the GSP0 enable to its validity, and apply the master-enable
   * rule. Whatever the register held before, the result keeps the rule;
   * the master enable is set, never cleared, here.
   */
  method UpdateDpInfoPackets(regs: Regs, frame: InfoFrame) returns (r: EncState)
    ensures r.regs.dp.secCntl.gsp0 == frame.vsc.valid
    ensures r.regs.dp.secCntl == regs.dp.secCntl.(gsp0 := frame.vsc.valid, streamEnable := r.regs.dp.secCntl.streamEnable)
    ensures r.regs.dp.secCntl.streamEnable <==> regs.dp.secCntl.streamEnable || AnyBesidesMaster(r.regs.dp.secCntl)
    ensures MasterCovers(r.regs.dp.secCntl)
    ensures frame.vsc.valid ==> PacketLoaded(r.regs.packets, 0, frame.vsc)
    ensures !frame.vsc.valid ==> r.regs.packets == regs.packets
    ensures r.regs == regs.(packets := r.regs.packets, dp := regs.dp.(secCntl := r.regs.dp.secCntl))
    ensures WritesIn(r.writes, (if frame.vsc.valid then GenericPacketWrites else []) + [DpSecCntl])
    ensures r.writes[|r.writes| - 1].after == r.regs
  {
    var g := EncState(regs, []);
    if frame.vsc.valid {
      g := UpdateGenericInfoPacket(regs, 0, frame.vsc);
    }
    var c := ApplyMasterRule(g.regs.dp.secCntl.(gsp0 := frame.vsc.valid));
    var last := g.regs.(dp := g.regs.dp.(secCntl := c));
    var lastWrite := [Write(DpSecCntl, last)];
    assert WritesIn(lastWrite, [DpSecCntl]);
    WritesInConcat(g.writes, if frame.vsc.valid then GenericPacketWrites else [], lastWrite, [DpSecCntl]);
    r := EncState(last, g.writes + lastWrite);
  }

  /**
   * `stop_dp_info_packets`: clear the GSP0-3, AVI and MPEG enables and the
   * master enable, then set the master enable again when another bit of
   * the shared register (the audio info frame's) is still set.
   */
  method StopDpInfoPackets(regs: Regs) returns (r: EncState)
    ensures var c := r.regs.dp.secCntl;
            !c.gsp0 && !c.gsp1 && !c.gsp2 && !c.gsp3 && !c.avi && !c.mpg &&
            c.others == regs.dp.secCntl.others &&
            (c.streamEnable <==> regs.dp.secCntl.others != 0)
    ensures MasterCovers(r.regs.dp.secCntl) && (r.regs.dp.secCntl.streamEnable ==> AnyBesidesMaster(r.regs.dp.secCntl))
    ensures r.writes == [Write(DpSecCntl, r.regs)]
    ensures r.regs == regs.(dp := regs.dp.(secCntl := r.regs.dp.secCntl))
  {
    var cleared := regs.dp.secCntl.(gsp0 := false, gsp1 := false, gsp2 := false, gsp3 := false,
                                    avi := false, mpg := false, streamEnable := false);
    var last := regs.(dp := regs.dp.(secCntl := ApplyMasterRule(cleared)));
    r := EncState(last, [Write(DpSecCntl, last)]);
  }
}

=== FILE: encoder_regs.dfy ===
/**
 * The DCE 8.0 stream-encoder registers as records of named fields.
 *
 * Field masks, shifts and register addresses live in headers that are not
 * part of this model, so a register is the record of the fields the encoder
 * programs; fields it never touches are not represented, except in
 * `DP_SEC_CNTL`, whose whole value the encoder tests for zero. Every write
 * is recorded with the register written and the register file right after
 * it, so write order and written values can both be stated.
 */
module EncoderRegs {
  import opened Ints

  /** The eight `AFMT_GENERIC_0` .. `AFMT_GENERIC_7` words. */
  type GenericWords = s: seq<U32> | |s| == 8 witness [0, 0, 0, 0, 0, 0, 0, 0]

  /** `AFMT_VBI_PACKET_CONTROL`: which generic packet is addressed, and the double-buffer update bits. */
  datatype VbiPacketControlFields = VbiPacketControlFields(genericIndex: U32, generic0Update: bool, generic2Update: bool)

  /** `AFMT_GENERIC_HDR`: the four header bytes of the generic packet. */
  datatype GenericHeaderFields = GenericHeaderFields(hb0: U8, hb1: U8, hb2: U8, hb3: U8)

  /** One generic packet's transmission control: continuous, send, and the line it goes on. */
  datatype PacketSlot = PacketSlot(cont: nat, send: nat, line: nat)

  /**
   * `HDMI_GENERIC_PACKET_CONTROL0` / `1`: two packet slots each (generic
   * packets 0 and 1, or 2 and 3).
   */
  datatype GenericPacketControlFields = GenericPacketControlFields(slot0: PacketSlot, slot1: PacketSlot)

  /** `DP_PIXEL_FORMAT`. */
  datatype DpPixelFormatFields = DpPixelFormatFields(pixelEncoding: nat, componentDepth: nat, dynRange: nat, ycbcrRange: nat)

  /** `TMDS_CNTL`. */
  datatype TmdsCntlFields = TmdsCntlFields(pixelEncoding: nat, colorFormat: nat)

  /** `HDMI_CONTROL`. */
  datatype HdmiControlFields = HdmiControlFields(packetGenVersion: nat, keepoutMode: nat, deepColorEnable: nat, deepColorDepth: nat)

  /** `HDMI_VBI_PACKET_CONTROL`: general-control packet and null packet transmission. */
  datatype HdmiVbiPacketControlFields = HdmiVbiPacketControlFields(gcCont: nat, gcSend: nat, nullSend: nat)

  /** `HDMI_INFOFRAME_CONTROL0`. */
  datatype InfoframeControl0Fields = InfoframeControl0Fields(audioInfoSend: nat, aviInfoSend: nat, aviInfoCont: nat)

  /** `HDMI_INFOFRAME_CONTROL1`. */
  datatype InfoframeControl1Fields = InfoframeControl1Fields(audioInfoLine: nat, aviInfoLine: nat)

  /** `AFMT_AVI_INFO0` .. `AFMT_AVI_INFO3`, one word each. */
  datatype AviInfoFields = AviInfoFields(info0: U32, info1: U32, info2: U32, info3: U32)

  /** The `AFMT_AVI_INFO_VERSION` field of an `AFMT_AVI_INFO3` value: bits 24 to 31. */
  function AviVersion(info3: U32): U8 {
    info3 / 0x100_0000
  }

  /**
   * `w` with its `AFMT_AVI_INFO_VERSION` field set to `version`: the field
   * then reads back `version` and every other bit of `w` is kept.
   */
  function WithAviVersion(w: U32, version: U8): (r: U32)
    ensures AviVersion(r) == version
    ensures r % 0x100_0000 == w % 0x100_0000
  {
    w % 0x100_0000 + version * 0x100_0000
  }

  /**
   * `DP_SEC_CNTL`: the generic-stream-packet, AVI and MPEG enables, the
   * secondary-stream master enable, and `others`, the value of every other
   * bit of the register (shared with the audio info frame).
   */
  datatype DpSecCntlFields = DpSecCntlFields(
    gsp0: bool, gsp1: bool, gsp2: bool, gsp3: bool, avi: bool, mpg: bool,
    streamEnable: bool, others: nat)

  /** Whether the whole `DP_SEC_CNTL` value is nonzero. */
  predicate SecCntlNonZero(c: DpSecCntlFields) {
    c.gsp0 || c.gsp1 || c.gsp2 || c.gsp3 || c.avi || c.mpg || c.streamEnable || c.others != 0
  }

  /** `DP_VID_STREAM_CNTL` (its read-only status bit is an input of the polls). */
  datatype DpVidStreamCntlFields = DpVidStreamCntlFields(disDefer: nat, enable: bool)

  /** `DP_MSE_RATE_CNTL`: the integer and fractional MST time-slot rate (`DP_MSE_RATE_UPDATE` is polled, not written). */
  datatype MseRateFields = MseRateFields(rateX: U32, rateY: U32)

  /** The generic-packet block: packet selection, header, payload words and HDMI transmission control. */
  datatype PacketRegs = PacketRegs(
    vbiPacketControl: VbiPacketControlFields,
    genericHeader: GenericHeaderFields,
    generic: GenericWords,
    genericControl0: GenericPacketControlFields,
    genericControl1: GenericPacketControlFields,
    address0: U32)

  /** The TMDS / HDMI block. */
  datatype HdmiRegs = HdmiRegs(
    tmdsCntl: TmdsCntlFields,
    hdmiControl: HdmiControlFields,
    vbiPacketControl: HdmiVbiPacketControlFields,
    infoframeControl0: InfoframeControl0Fields,
    afmtAudioInfoUpdate: nat,
    infoframeControl1: InfoframeControl1Fields,
    gcAvmute: nat,
    avi: AviInfoFields)

  /** The DisplayPort block. */
  datatype DpRegs = DpRegs(
    pixelFormat: DpPixelFormatFields,
    secCntl: DpSecCntlFields,
    vidStreamCntl: DpVidStreamCntlFields,
    steerFifoReset: bool,
    vidMnGenEn: bool,
    vidN: U32,
    vidM: U32,
    mseRate: MseRateFields)

  /** The register file of one stream encoder. */
  datatype Regs = Regs(packets: PacketRegs, hdmi: HdmiRegs, dp: DpRegs, digStart: nat)

  /**
   * The registers the encoder writes. `RegisterZero` is address 0, which
   * the HDMI packet-control path reaches with an index it does not route.
   */
  datatype Reg =
    | AfmtVbiPacketControl
    | AfmtGenericHdr
    | AfmtGeneric(k: nat)
    | HdmiGenericPacketControl0
    | HdmiGenericPacketControl1
    | RegisterZero
    | DpPixelFormat
    | TmdsCntl
    | HdmiControl
    | HdmiVbiPacketControl
    | HdmiInfoframeControl0
    | AfmtInfoframeControl0
    | HdmiInfoframeControl1
    | HdmiGc
    | AfmtAviInfo(k: nat)
    | DpSecCntl
    | DpVidStreamCntl
    | DpSteerFifo
    | DpVidTiming
    | DpVidN
    | DpVidM
    | DigFeCntl
    | DpMseRateCntl
    | DpMseRateUpdate

  /**
   * One register access the encoder makes: a write, with the register file
   * just after it, or a status poll of `reg` that read it `count` times.
   */
  datatype Access = Write(reg: Reg, after: Regs) | Poll(reg: Reg, count: nat)

  /** The register file after an operation, and the accesses that operation made, oldest first. */
  datatype EncState = EncState(regs: Regs, writes: seq<Access>)

  /** The registers accessed by `ws`, in order. */
  function Trace(ws: seq<Access>): (r: seq<Reg>)
    ensures |r| == |ws| && forall j | 0 <= j < |ws| :: r[j] == ws[j].reg
  {
    seq(|ws|, j requires 0 <= j < |ws| => ws[j].reg)
  }

  /** `ws` is a run of plain writes, to the registers of `regs` in that order. */
  predicate WritesIn(ws: seq<Access>, regs: seq<Reg>) {
    Trace(ws) == regs && forall j | 0 <= j < |ws| :: ws[j].Write?
  }

  /** Two runs of writes one after the other write the two register lists one after the other. */
  lemma WritesInConcat(a: seq<Access>, ra: seq<Reg>, b: seq<Access>, rb: seq<Reg>)
    requires WritesIn(a, ra) && WritesIn(b, rb)
    ensures WritesIn(a + b, ra + rb)
  {
    assert Trace(a + b) == Trace(a) + Trace(b);
    forall j | 0 <= j < |a + b| ensures (a + b)[j].Write? {
      if j >= |a| { assert (a + b)[j] == b[j - |a|]; }
    }
  }

  /** No access in `ws` goes to address 0. */
  predicate AvoidsRegisterZero(ws: seq<Access>) {
    forall j | 0 <= j < |ws| :: ws[j].reg != RegisterZero
  }

  lemma AvoidsRegisterZeroConcat(a: seq<Access>, b: seq<Access>)
    ensures AvoidsRegisterZero(a + b) <==> AvoidsRegisterZero(a) && AvoidsRegisterZero(b)
  {
    if AvoidsRegisterZero(a) && AvoidsRegisterZero(b) {
      forall j | 0 <= j < |a + b| ensures (a + b)[j].reg != RegisterZero {
        if j >= |a| { assert (a + b)[j] == b[j - |a|]; }
      }
    }
    if AvoidsRegisterZero(a + b) {
      forall j | 0 <= j < |a| ensures a[j].reg != RegisterZero {
        assert (a + b)[j] == a[j];
      }
      forall j | 0 <= j < |b| ensures b[j].reg != RegisterZero {
        assert (a + b)[|a| + j] == b[j];
      }
    }
  }

  /** Accesses whose registers are listed in `regs` avoid address 0 when the list does. */
  lemma ListedAvoidRegisterZero(ws: seq<Access>, regs: seq<Reg>)
    requires WritesIn(ws, regs) && RegisterZero !in regs
    ensures AvoidsRegisterZero(ws)
  {
    forall j | 0 <= j < |ws| ensures ws[j].reg != RegisterZero {
      assert ws[j].reg == regs[j];
    }
  }
}

=== FILE: events.dfy ===
/**
 * The observable calls the display core makes into its collaborators: the
 * hardware sequencer (`hwss`), the timing generators' `set_blank`, and the
 * platform power library (`pplib_*`). Operations return the calls they make,
 * in order, as a trace of these events.
 */
module HwEvents {
  import opened DisplayConfig

  datatype Event =
    | ApplySafeState                                  // pplib_apply_safe_state
    | EnableAcceleratedMode                           // hwss.enable_accelerated_mode
    | ApplyCtxToHw                                    // hwss.apply_ctx_to_hw
    | EnableTimingSync(groupIndex: nat, group: seq<nat>)  // hwss.enable_timing_synchronization
    | SetBlank(pipe: nat, blank: bool)                // tg->funcs->set_blank on the timing generator of a pipe slot
    | ApplyDisplayRequirements(cfg: DisplayConfiguration) // pplib_apply_display_requirements
    | SetDisplayClock(dispclkKhz: nat)                // hwss.set_display_clock
    | ApplyCtxToSurface                               // hwss.apply_ctx_to_surface
    | UpdatePlaneSurface(surfaces: seq<nat>)          // hwss.update_plane_surface
    | InitHw                                          // hwss.init_hw
    | PowerDown                                       // hwss.power_down
}

=== FILE: fence.dfy ===
/**
 * Fence ordering for kernels older than 4.4: a fence is later than another
 * on the same timeline when the 32-bit difference of their sequence numbers,
 * read as a signed 32-bit integer, is positive.
 *
 * Sequence numbers are unsigned 32-bit values; the model keeps them as
 * integers in [0, 2^32) and writes the unsigned wrap-around out as `% 2^32`.
 */
module KclFence {
  import opened Ints

  const Two31: int := 0x8000_0000

  /** The fields `fence_is_later` reads: the timeline (`context`) and the 32-bit `seqno`. */
  datatype Fence = Fence(context: nat, seqno: U32)

  /** Unsigned 32-bit subtraction `a - b`, which wraps modulo 2^32. */
  function SubU32(a: U32, b: U32): (r: U32)
    ensures a >= b ==> r == a - b
    ensures a < b ==> r == a - b + Two32
  {
    (a - b) % Two32
  }

  /** C's `(int)` cast of an unsigned 32-bit value: two's complement reinterpretation. */
  function AsInt32(x: U32): (r: int)
    ensures -Two31 <= r < Two31
    ensures r % Two32 == x
    ensures r >= 0 <==> x < Two31
  {
    if x < Two31 then x else x - Two32
  }

  /** `fence_is_later(f1, f2)`; fences on different timelines are never ordered. */
  function IsLater(f1: Fence, f2: Fence): (r: bool)
    ensures f1.context != f2.context ==> !r
  {
    if f1.context != f2.context then false
    else AsInt32(SubU32(f1.seqno, f2.seqno)) > 0
  }

  /** On one timeline, f1 is later than f2 exactly when (f1.seqno - f2.seqno) mod 2^32 lies in [1, 2^31 - 1]. */
  lemma IsLaterIffForwardDistance(f1: Fence, f2: Fence)
    requires f1.context == f2.context
    ensures IsLater(f1, f2) <==> 1 <= (f1.seqno - f2.seqno) % Two32 <= Two31 - 1
  {
  }

  /** A fence is never later than itself (equal sequence numbers are unordered). */
  lemma NotLaterThanItself(f: Fence)
    ensures !IsLater(f, f)
  {
  }

  /** Wrap-around: sequence number 0 follows 0xFFFFFFFF on the same timeline, not the reverse. */
  lemma WrapAround(c: nat)
    ensures IsLater(Fence(c, 0), Fence(c, 0xFFFF_FFFF))
    ensures !IsLater(Fence(c, 0xFFFF_FFFF), Fence(c, 0))
  {
  }

  /** The order is asymmetric, even when the distance is exactly 2^31. */
  lemma Asymmetric(a: Fence, b: Fence)
    ensures !(IsLater(a, b) && IsLater(b, a))
  {
  }

  /** At distance exactly 2^31 neither fence is later than the other. */
  lemma HalfwayIsUnordered(a: Fence, b: Fence)
    requires a.context == b.context
    requires SubU32(a.seqno, b.seqno) == Two31
    ensures !IsLater(a, b) && !IsLater(b, a)
  {
  }
}

=== FILE: ints.dfy ===
/** Fixed-width unsigned integers, kept as bounded `int`s with explicit wrap-around. */
module Ints {
  const Two32: int := 0x1_0000_0000

  /** An unsigned 8-bit value. */
  type U8 = x: int | 0 <= x < 0x100

  /** An unsigned 32-bit value. */
  type U32 = x: int | 0 <= x < 0x1_0000_0000

  /** A nonzero unsigned 32-bit value (a divisor). */
  type PosU32 = x: int | 0 < x < 0x1_0000_0000 witness 1

  /** Truncation of an integer result to 32 unsigned bits. */
  function WrapU32(x: int): (r: U32)
    ensures 0 <= x < Two32 ==> r == x
    ensures (r - x) % Two32 == 0
  {
    x % Two32
  }
}

=== FILE: links.dfy ===
/**
 * Links and their sinks (`create_links`, `dc_link_add_remote_sink`,
 * `link_add_remote_sink_helper`, `dc_link_remove_remote_sink`,
 * `dc_link_set_sink`).
 *
 * Sinks are compared by identity in the driver (pointer equality); here every
 * sink carries an `id` and identity is equality of ids.
 */
module Links {
  import opened Wrappers
  import opened Seqs

  /** `MAX_SINKS_PER_LINK`: the capacity of a link's `remote_sinks` array. */
  const MaxSinksPerLink: nat := 4
  /** `MAX_EDID_BUFFER_SIZE`: the largest EDID a remote sink may carry. */
  const MaxEdidBufferSize: nat := 512
  /** `ENUM_ID_COUNT`: the most physical connectors the driver accepts. */
  const EnumIdCount: int := 8

  /** A display sink: its identity, the link named at creation, and its raw EDID. */
  datatype Sink = Sink(id: nat, ownerLink: nat, edid: seq<bv8>)

  /** `dc_connection_type`. */
  datatype ConnectionType = ConnectionNone | ConnectionSingle | ConnectionMstBranch | ConnectionActiveDongle

  /** The connector signal; physical links take theirs from the link factory. */
  datatype Signal = SignalVirtual | SignalPhysical(code: nat)

  /**
   * A link. `connector` is the connector index it was created for (None for
   * a virtual link, whose id is the virtual connector, enumeration 1).
   */
  datatype Link = Link(
    index: nat,
    connector: Option<nat>,
    connectorSignal: Signal,
    localSink: Option<Sink>,
    connType: ConnectionType,
    remoteSinks: seq<Sink>)

  /** The `remote_sinks` array never holds more than its capacity. */
  predicate WellFormed(link: Link) {
    |link.remoteSinks| <= MaxSinksPerLink
  }

  predicate HasSinkId(link: Link, id: nat) {
    exists k | 0 <= k < |link.remoteSinks| :: link.remoteSinks[k].id == id
  }

  /**
   * `dc_link_remove_remote_sink`: drop the first remote sink identical to
   * `sink` and close the gap; an empty link, or a sink not on the link,
   * leaves it as it was.
   */
  function RemoveRemoteSink(link: Link, sink: Sink): (r: Link)
    ensures r == link.(remoteSinks := r.remoteSinks)
    ensures !HasSinkId(link, sink.id) ==> r == link
    ensures HasSinkId(link, sink.id) ==>
              exists i | 0 <= i < |link.remoteSinks| ::
                link.remoteSinks[i].id == sink.id &&
                (forall j | 0 <= j < i :: link.remoteSinks[j].id != sink.id) &&
                r.remoteSinks == link.remoteSinks[..i] + link.remoteSinks[i + 1..]
    ensures HasSinkId(link, sink.id) ==> |r.remoteSinks| == |link.remoteSinks| - 1
    ensures multiset(r.remoteSinks) <= multiset(link.remoteSinks)
  {
    if |link.remoteSinks| == 0 then link
    else
      match FirstMatch(link.remoteSinks, (x: Sink) => x.id == sink.id, 0)
      case None => link
      case Some(i) =>
        var rest := RemoveAt(link.remoteSinks, i);
        assert rest == link.remoteSinks[..i] + link.remoteSinks[i + 1..];
        link.(remoteSinks := rest)
  }

  /** `link_add_remote_sink_helper`: append unless the array is full. */
  function AddRemoteSinkHelper(link: Link, sink: Sink): (r: (bool, Link))
    ensures r.0 <==> |link.remoteSinks| < MaxSinksPerLink
    ensures r.0 ==> r.1 == link.(remoteSinks := link.remoteSinks + [sink])
    ensures !r.0 ==> r.1 == link
    ensures WellFormed(link) ==> WellFormed(r.1)
  {
    if |link.remoteSinks| >= MaxSinksPerLink then (false, link)
    else (true, link.(remoteSinks := link.remoteSinks + [sink]))
  }

  /** `dc_sink_init_data`: only whether it, and the link it names, are present matters here. */
  datatype SinkInitData = SinkInitData(link: Option<nat>)

  /**
   * `dc_link_add_remote_sink`. `newSinkId` is the identity `dc_sink_create`
   * hands out (None when that allocation fails); `parseEdid` stands for
   * `dm_helpers_parse_edid_caps` answering EDID_OK.
   */
  function AddRemoteSink(link: Link, edid: seq<bv8>, initData: Option<SinkInitData>,
                         newSinkId: Option<nat>, parseEdid: seq<bv8> -> bool): (r: (Option<Sink>, Link))
    ensures r.0.Some? <==>
              |edid| <= MaxEdidBufferSize && initData.Some? && initData.value.link.Some? &&
              newSinkId.Some? && |link.remoteSinks| < MaxSinksPerLink && parseEdid(edid)
    ensures r.0.Some? ==>
              r.0.value == Sink(newSinkId.value, initData.value.link.value, edid) &&
              r.1 == link.(remoteSinks := link.remoteSinks + [r.0.value])
    ensures r.0.None? && (newSinkId.None? || !HasSinkId(link, newSinkId.value)) ==> r.1 == link
    ensures WellFormed(link) ==> WellFormed(r.1)
  {
    if |edid| > MaxEdidBufferSize then (None, link)
    else if initData.None? then (None, link)
    else if initData.value.link.None? then (None, link)
    else if newSinkId.None? then (None, link)
    else
      var sink := Sink(newSinkId.value, initData.value.link.value, edid);
      var (added, withSink) := AddRemoteSinkHelper(link, sink);
      if !added then (None, link)
      else if !parseEdid(edid) then
        AppendThenRemove(link, sink);
        (None, RemoveRemoteSink(withSink, sink))
      else (Some(sink), withSink)
  }

  /** Removing a freshly appended sink gives back the link it was appended to. */
  lemma AppendThenRemove(link: Link, sink: Sink)
    ensures !HasSinkId(link, sink.id) ==>
              RemoveRemoteSink(link.(remoteSinks := link.remoteSinks + [sink]), sink) == link
  {
    if !HasSinkId(link, sink.id) {
      var s := link.remoteSinks + [sink];
      var n := |link.remoteSinks|;
      var r := RemoveRemoteSink(link.(remoteSinks := s), sink);
      assert s[n].id == sink.id;
      var i :| 0 <= i < |s| && s[i].id == sink.id &&
               (forall j | 0 <= j < i :: s[j].id != sink.id) &&
               r.remoteSinks == s[..i] + s[i + 1..];
      assert i == n;
      assert s[..n] == link.remoteSinks;
    }
  }

  /** Add then remove: a successful add is undone by removing the sink it returned. */
  lemma AddThenRemoveRestores(link: Link, edid: seq<bv8>, initData: Option<SinkInitData>,
                              newSinkId: Option<nat>, parseEdid: seq<bv8> -> bool)
    requires newSinkId.Some? ==> !HasSinkId(link, newSinkId.value)
    ensures var (sink, l) := AddRemoteSink(link, edid, initData, newSinkId, parseEdid);
            sink.Some? ==> RemoveRemoteSink(l, sink.value) == link
  {
    var (sink, l) := AddRemoteSink(link, edid, initData, newSinkId, parseEdid);
    if sink.Some? {
      AppendThenRemove(link, sink.value);
    }
  }

  /** `dc_link_set_sink`: the local sink, and a connection type that says whether there is one. */
  function SetSink(link: Link, sink: Option<Sink>): (r: Link)
    ensures r.localSink == sink
    ensures r.connType == ConnectionNone <==> sink.None?
    ensures sink.Some? ==> r.connType == ConnectionSingle
    ensures r.remoteSinks == link.remoteSinks && r.index == link.index && r.connector == link.connector
    ensures r.connectorSignal == link.connectorSignal
  {
    link.(localSink := sink, connType := if sink.None? then ConnectionNone else ConnectionSingle)
  }

  /** A link as created: no sinks and no connection yet. */
  function NewLink(index: nat, connector: Option<nat>, signal: Signal): Link {
    Link(index, connector, signal, None, ConnectionNone, [])
  }

  /** How many of the connectors below `m` the link factory builds a link for. */
  function CountCreated(linkCreate: nat -> Option<Signal>, m: nat): nat {
    if m == 0 then 0
    else CountCreated(linkCreate, m - 1) + (if linkCreate(m - 1).Some? then 1 else 0)
  }

  /** The physical links of slots `0 .. |links|`, created for connectors below `m`. */
  predicate PhysicalPrefix(links: seq<Link>, linkCreate: nat -> Option<Signal>, m: nat) {
    |links| == CountCreated(linkCreate, m) &&
    (forall k | 0 <= k < |links| ::
       links[k].connector.Some? && links[k].connector.value < m &&
       linkCreate(links[k].connector.value).Some? &&
       links[k] == NewLink(k, links[k].connector, linkCreate(links[k].connector.value).value)) &&
    (forall k1, k2 | 0 <= k1 < k2 < |links| ::
       links[k1].connector.value < links[k2].connector.value)
  }

  /** The virtual links of slots `base .. |links|`. */
  predicate VirtualFrom(links: seq<Link>, base: nat) {
    base <= |links| &&
    forall k | base <= k < |links| :: links[k] == NewLink(k, None, SignalVirtual)
  }

  /**
   * `create_links`. `linkCreate(i)` is what `link_create` builds for
   * connector `i` (None on failure, which skips the connector);
   * `allocVirtual(i)` is whether the allocation of virtual link `i`
   * succeeds. A link's `index` is its slot.
   */
  method CreateLinks(connectorsNum: int, numVirtualLinks: nat,
                     linkCreate: nat -> Option<Signal>, allocVirtual: nat -> bool)
    returns (ok: bool, links: seq<Link>)
    ensures connectorsNum > EnumIdCount ==> !ok && links == []
    ensures connectorsNum <= EnumIdCount ==>
              var m := if connectorsNum < 0 then 0 else connectorsNum;
              var p := CountCreated(linkCreate, m);
              p <= |links| &&
              PhysicalPrefix(links[..p], linkCreate, m) &&
              VirtualFrom(links, p) &&
              (ok <==> forall v | 0 <= v < numVirtualLinks :: allocVirtual(v)) &&
              (ok ==> |links| == p + numVirtualLinks) &&
              (!ok ==> |links| - p < numVirtualLinks && !allocVirtual(|links| - p) &&
                       forall v | 0 <= v < |links| - p :: allocVirtual(v))
  {
    links := [];
    if connectorsNum > EnumIdCount {
      return false, links;
    }
    var i := 0;
    while i < connectorsNum
      invariant 0 <= i <= (if connectorsNum < 0 then 0 else connectorsNum)
      invariant PhysicalPrefix(links, linkCreate, i)
    {
      var created := linkCreate(i);
      if created.Some? {
        links := links + [NewLink(|links|, Some(i), created.value)];
      }
      i := i + 1;
    }
    var p := |links|;
    ghost var physical := links;
    var v := 0;
    while v < numVirtualLinks
      invariant 0 <= v <= numVirtualLinks
      invariant |links| == p + v
      invariant links[..p] == physical
      invariant VirtualFrom(links, p)
      invariant forall w | 0 <= w < v :: allocVirtual(w)
    {
      if !allocVirtual(v) {
        return false, links;
      }
      links := links + [NewLink(|links|, None, SignalVirtual)];
      v := v + 1;
    }
    return true, links;
  }
}

=== FILE: seqs.dfy ===
/** Sequence helpers shared by the pipe and sink searches. */
module Seqs {
  import opened Wrappers

  /** The lowest index at or after `from` whose element satisfies `p`, if any. */
  function FirstMatch<T>(s: seq<T>, p: T -> bool, from: nat): (r: Option<nat>)
    requires from <= |s|
    ensures r.Some? ==> from <= r.value < |s| && p(s[r.value])
    ensures r.Some? ==> forall j | from <= j < r.value :: !p(s[j])
    ensures r.None? ==> forall j | from <= j < |s| :: !p(s[j])
    decreases |s| - from
  {
    if from == |s| then None
    else if p(s[from]) then Some(from)
    else FirstMatch(s, p, from + 1)
  }

  /** `s` without its element at index `i`; the others keep their order. */
  function RemoveAt<T>(s: seq<T>, i: nat): (r: seq<T>)
    requires i < |s|
    ensures |r| == |s| - 1
    ensures forall j | 0 <= j < i :: r[j] == s[j]
    ensures forall j | i <= j < |r| :: r[j] == s[j + 1]
    ensures multiset(r) + multiset{s[i]} == multiset(s)
  {
    assert s == s[..i] + [s[i]] + s[i + 1..];
    s[..i] + s[i + 1..]
  }
}

=== FILE: status.dfy ===
/**
 * The display core's status codes (`enum dc_status`). `DC_OK` is 1, the
 * failure codes follow it in declaration order (2 .. 11), and
 * `DC_ERROR_UNEXPECTED` is -1.
 */
module CoreStatus {
  import opened Wrappers

  datatype DcStatus =
    | Ok
    | NoControllerResource
    | NoStreamEngResource
    | NoClockSourceResource
    | FailControllerValidate
    | FailEncValidate
    | FailAttachSurfaces
    | NoDpLinkBandwidth
    | ExceedDongleMaxClk
    | SurfacePixelFormatUnsupported
    | FailBandwidthValidate
    | ErrorUnexpected

  /** The integer value of each enumerator. */
  function Code(s: DcStatus): int {
    match s
    case Ok => 1
    case NoControllerResource => 2
    case NoStreamEngResource => 3
    case NoClockSourceResource => 4
    case FailControllerValidate => 5
    case FailEncValidate => 6
    case FailAttachSurfaces => 7
    case NoDpLinkBandwidth => 8
    case ExceedDongleMaxClk => 9
    case SurfacePixelFormatUnsupported => 10
    case FailBandwidthValidate => 11
    case ErrorUnexpected => -1
  }

  /** The enumerator with a given integer value, if there is one. */
  function FromCode(c: int): (r: Option<DcStatus>)
    ensures r.Some? <==> (c == -1 || 1 <= c <= 11)
  {
    if c == 1 then Some(Ok)
    else if c == 2 then Some(NoControllerResource)
    else if c == 3 then Some(NoStreamEngResource)
    else if c == 4 then Some(NoClockSourceResource)
    else if c == 5 then Some(FailControllerValidate)
    else if c == 6 then Some(FailEncValidate)
    else if c == 7 then Some(FailAttachSurfaces)
    else if c == 8 then Some(NoDpLinkBandwidth)
    else if c == 9 then Some(ExceedDongleMaxClk)
    else if c == 10 then Some(SurfacePixelFormatUnsupported)
    else if c == 11 then Some(FailBandwidthValidate)
    else if c == -1 then Some(ErrorUnexpected)
    else None
  }

  /** C truth value of an integer: any nonzero value is true. */
  function AsBool(c: int): bool {
    c != 0
  }

  /** Decoding a status's code gives the status back, and `DC_OK` is the only code 1. */
  lemma CodeRoundTrip(s: DcStatus)
    ensures FromCode(Code(s)) == Some(s)
    ensures Code(s) == 1 <==> s == Ok
    ensures s != ErrorUnexpected ==> 1 <= Code(s) <= 11
    ensures s == ErrorUnexpected <==> Code(s) == -1
  {
  }

  /** Every decodable code encodes back to itself, so `Code` is a bijection onto {-1, 1 .. 11}. */
  lemma FromCodeRoundTrip(c: int)
    requires FromCode(c).Some?
    ensures Code(FromCode(c).value) == c
  {
  }

  /** Every status code, `DC_OK` included, is a true C boolean. */
  lemma EveryCodeIsTrue(s: DcStatus)
    ensures AsBool(Code(s))
  {
  }
}

=== FILE: timing_sync.dfy ===
/**
 * `program_timing_sync`: after a context is applied, the bound pipes are
 * greedily partitioned into groups whose streams can share a timing
 * generator's vertical blank, and every group of two or more pipes is
 * synchronized with one `enable_timing_synchronization` call.
 */
module TimingSync {
  import opened DcTypes
  import opened HwEvents

  /** The pipe slots a list of groups already holds. */
  function Covered(groups: seq<seq<nat>>): set<nat> {
    if |groups| == 0 then {}
    else Covered(groups[..|groups| - 1]) + Elems(groups[|groups| - 1])
  }

  function Elems(g: seq<nat>): set<nat> {
    set m | 0 <= m < |g| :: g[m]
  }

  lemma CoveredContains(groups: seq<seq<nat>>, k: nat, x: nat)
    requires k < |groups| && x in groups[k]
    ensures x in Covered(groups)
    decreases |groups|
  {
    if k < |groups| - 1 {
      CoveredContains(groups[..|groups| - 1], k, x);
    }
  }

  /** A group: nonempty, strictly increasing slot numbers below `n`, every slot bound. */
  ghost predicate WellShaped(pipes: seq<PipeCtx>, n: nat, g: seq<nat>)
    requires n <= |pipes|
  {
    && |g| > 0
    && (forall m | 0 <= m < |g| :: g[m] < n && pipes[g[m]].stream.Some?)
    && (forall a, b | 0 <= a < b < |g| :: g[a] < g[b])
  }

  /** The stream bound to slot `x` (a placeholder when the slot is unbound). */
  function StreamAt(pipes: seq<PipeCtx>, x: nat): Stream
    requires x < |pipes|
  {
    if pipes[x].stream.Some? then pipes[x].stream.value
    else Stream(0, Timing(0, 0, 1, 1, 1))
  }

  /** Every group is well shaped and led by a slot below `i`. */
  ghost predicate ShapedBelow(pipes: seq<PipeCtx>, n: nat, groups: seq<seq<nat>>, i: nat)
    requires n <= |pipes|
  {
    forall k | 0 <= k < |groups| :: WellShaped(pipes, n, groups[k]) && groups[k][0] < i
  }

  /** No slot is in two groups. */
  ghost predicate Disjoint(groups: seq<seq<nat>>) {
    forall k1, k2, x | 0 <= k1 < k2 < |groups| && x in groups[k1] :: x !in groups[k2]
  }

  /** Every bound slot below `i` is in some group. */
  ghost predicate CoversBelow(pipes: seq<PipeCtx>, n: nat, groups: seq<seq<nat>>, i: nat)
    requires n <= |pipes|
  {
    forall x | 0 <= x < i && x < n && pipes[x].stream.Some? :: x in Covered(groups)
  }

  /** Each group's leader is the lowest bound slot that no earlier group holds. */
  ghost predicate LeadersLowest(pipes: seq<PipeCtx>, n: nat, groups: seq<seq<nat>>)
    requires n <= |pipes|
  {
    forall k, x | 0 <= k < |groups| && |groups[k]| > 0 && 0 <= x < n && pipes[x].stream.Some? &&
                  x !in Covered(groups[..k]) :: groups[k][0] <= x
  }

  /** Each member of a group is synchronizable with the group's leader. */
  ghost predicate MembersSync(pipes: seq<PipeCtx>, sync: (Stream, Stream) -> bool, groups: seq<seq<nat>>) {
    forall k, m | 0 <= k < |groups| && 1 <= m < |groups[k]| ::
      groups[k][m] < |pipes| && groups[k][0] < |pipes| &&
      sync(StreamAt(pipes, groups[k][m]), StreamAt(pipes, groups[k][0]))
  }

  /** Every bound slot above a leader, held by no earlier group and synchronizable with the leader, joined its group. */
  ghost predicate Maximal(pipes: seq<PipeCtx>, n: nat, sync: (Stream, Stream) -> bool, groups: seq<seq<nat>>)
    requires n <= |pipes|
  {
    forall k, x | 0 <= k < |groups| && |groups[k]| > 0 && groups[k][0] < x < n && pipes[x].stream.Some? &&
                  x !in Covered(groups[..k]) && groups[k][0] < |pipes| &&
                  sync(StreamAt(pipes, x), StreamAt(pipes, groups[k][0])) :: x in groups[k]
  }

  /**
   * The greedy partition of the bound slots below `n`: groups are well shaped
   * and pairwise disjoint; every bound slot is in one; each group's leader is
   * the lowest bound slot no earlier group holds; each member is
   * synchronizable with its leader; and every later slot that no earlier group
   * holds and is synchronizable with the leader joined it.
   */
  ghost predicate IsSyncPartition(pipes: seq<PipeCtx>, n: nat, sync: (Stream, Stream) -> bool, groups: seq<seq<nat>>)
    requires n <= |pipes|
  {
    && ShapedBelow(pipes, n, groups, n)
    && Disjoint(groups)
    && CoversBelow(pipes, n, groups, n)
    && LeadersLowest(pipes, n, groups)
    && MembersSync(pipes, sync, groups)
    && Maximal(pipes, n, sync, groups)
  }

  /** The synchronization calls for a list of groups: one per group of two or more, numbered from 0. */
  function SyncEvents(groups: seq<seq<nat>>): seq<Event> {
    if |groups| == 0 then []
    else
      var prev := SyncEvents(groups[..|groups| - 1]);
      var g := groups[|groups| - 1];
      if |g| > 1 then prev + [EnableTimingSync(|prev|, g)] else prev
  }

  /**
   * The synchronization calls are numbered 0, 1, 2, ... in order, each names
   * a group of two or more, and there is one per such group.
   */
  lemma {:induction false} SyncEventsNumbered(groups: seq<seq<nat>>)
    ensures var ev := SyncEvents(groups);
            forall n | 0 <= n < |ev| ::
              ev[n].EnableTimingSync? && ev[n].groupIndex == n && |ev[n].group| > 1 && ev[n].group in groups
    ensures |SyncEvents(groups)| == |set k | 0 <= k < |groups| && |groups[k]| > 1|
  {
    if |groups| > 0 {
      var init := groups[..|groups| - 1];
      SyncEventsNumbered(init);
      var last := |groups| - 1;
      var big := set k | 0 <= k < |groups| && |groups[k]| > 1;
      var bigInit := set k | 0 <= k < |init| && |init[k]| > 1;
      if |groups[last]| > 1 {
        assert big == bigInit + {last};
      } else {
        assert big == bigInit;
      }
    }
  }

  /**
   * The group led by slot `i`: strictly increasing slots in [i, n) starting
   * at `i`; every member after the leader is bound, outside `covered`, and
   * synchronizable with the leader; and every such slot above `i` is a member.
   */
  ghost predicate IsGroupOf(pipes: seq<PipeCtx>, n: nat, sync: (Stream, Stream) -> bool, covered: set<nat>, i: nat, g: seq<nat>)
    requires i < n <= |pipes|
  {
    && |g| >= 1 && g[0] == i
    && (forall m | 0 <= m < |g| :: i <= g[m] < n)
    && (forall a, b | 0 <= a < b < |g| :: g[a] < g[b])
    && (forall m | 1 <= m < |g| ::
          pipes[g[m]].stream.Some? && g[m] !in covered && sync(StreamAt(pipes, g[m]), StreamAt(pipes, i)))
    && (forall x | i < x < n && pipes[x].stream.Some? && x !in covered &&
          sync(StreamAt(pipes, x), StreamAt(pipes, i)) :: x in g)
  }

  /** The inner loop of `program_timing_sync`: collect the unsynced slots above `i` that match slot `i`. */
  method CollectGroup(pipes: seq<PipeCtx>, n: nat, sync: (Stream, Stream) -> bool,
                      unsynced: seq<bool>, i: nat, ghost covered: set<nat>)
    returns (g: seq<nat>, left: seq<bool>)
    requires i < n <= |pipes| && |unsynced| == n
    requires forall x | 0 <= x < n :: unsynced[x] <==> (pipes[x].stream.Some? && x !in covered)
    ensures IsGroupOf(pipes, n, sync, covered, i, g)
    ensures |left| == n
    ensures forall x | 0 <= x < n :: left[x] <==> (unsynced[x] && x !in g)
  {
    g := [i];
    left := unsynced[i := false];
    var j := i + 1;
    while j < n
      invariant i + 1 <= j <= n
      invariant |left| == n
      invariant |g| >= 1 && g[0] == i
      invariant forall m | 0 <= m < |g| :: i <= g[m] < j
      invariant forall a, b | 0 <= a < b < |g| :: g[a] < g[b]
      invariant forall m | 1 <= m < |g| ::
                  pipes[g[m]].stream.Some? && g[m] !in covered &&
                  sync(StreamAt(pipes, g[m]), StreamAt(pipes, i))
      invariant forall x | 0 <= x < n :: left[x] <==> (unsynced[x] && x !in g)
      invariant forall x | i < x < j && pipes[x].stream.Some? && x !in covered &&
                  sync(StreamAt(pipes, x), StreamAt(pipes, i)) :: x in g
    {
      if left[j] && sync(StreamAt(pipes, j), StreamAt(pipes, i)) {
        g := g + [j];
        left := left[j := false];
      }
      j := j + 1;
    }
  }

  /** The outer-loop invariant: the groups formed so far, all led by slots below `i`. */
  ghost predicate PartitionBelow(pipes: seq<PipeCtx>, n: nat, sync: (Stream, Stream) -> bool, groups: seq<seq<nat>>, i: nat)
    requires n <= |pipes|
  {
    && ShapedBelow(pipes, n, groups, i)
    && Disjoint(groups)
    && CoversBelow(pipes, n, groups, i)
    && LeadersLowest(pipes, n, groups)
    && MembersSync(pipes, sync, groups)
    && Maximal(pipes, n, sync, groups)
  }

  /** Appending the group led by the lowest uncovered bound slot `i` keeps the invariant, one slot further. */
  lemma AppendGroup(pipes: seq<PipeCtx>, n: nat, sync: (Stream, Stream) -> bool, groups: seq<seq<nat>>, i: nat, g: seq<nat>)
    requires i < n <= |pipes|
    requires PartitionBelow(pipes, n, sync, groups, i)
    requires pipes[i].stream.Some? && i !in Covered(groups)
    requires IsGroupOf(pipes, n, sync, Covered(groups), i, g)
    ensures PartitionBelow(pipes, n, sync, groups + [g], i + 1)
    ensures Covered(groups + [g]) == Covered(groups) + Elems(g)
  {
    AppendCovers(pipes, n, groups, i, g);
    AppendShaped(pipes, n, groups, i, g);
    assert forall x | x in g :: x !in Covered(groups);
    AppendDisjoint(groups, g);
    AppendLeader(pipes, n, groups, i, g);
    AppendSync(pipes, n, sync, groups, i, g);
    AppendMaximal(pipes, n, sync, groups, i, g);
  }

  lemma AppendCovers(pipes: seq<PipeCtx>, n: nat, groups: seq<seq<nat>>, i: nat, g: seq<nat>)
    requires i < n <= |pipes|
    requires CoversBelow(pipes, n, groups, i)
    requires |g| >= 1 && g[0] == i
    ensures Covered(groups + [g]) == Covered(groups) + Elems(g)
    ensures CoversBelow(pipes, n, groups + [g], i + 1)
  {
    var gs := groups + [g];
    assert gs[..|gs| - 1] == groups;
    assert g[0] in Elems(g);
  }

  lemma AppendShaped(pipes: seq<PipeCtx>, n: nat, groups: seq<seq<nat>>, i: nat, g: seq<nat>)
    requires i < n <= |pipes|
    requires ShapedBelow(pipes, n, groups, i)
    requires pipes[i].stream.Some?
    requires |g| >= 1 && g[0] == i
    requires forall m | 0 <= m < |g| :: i <= g[m] < n
    requires forall a, b | 0 <= a < b < |g| :: g[a] < g[b]
    requires forall m | 1 <= m < |g| :: pipes[g[m]].stream.Some?
    ensures ShapedBelow(pipes, n, groups + [g], i + 1)
  {
    assert WellShaped(pipes, n, g);
  }

  lemma AppendDisjoint(groups: seq<seq<nat>>, g: seq<nat>)
    requires Disjoint(groups)
    requires forall x | x in g :: x !in Covered(groups)
    ensures Disjoint(groups + [g])
  {
    var gs := groups + [g];
    forall k1, k2, x | 0 <= k1 < k2 < |gs| && x in gs[k1]
      ensures x !in gs[k2]
    {
      if k2 == |groups| {
        CoveredContains(groups, k1, x);
      }
    }
  }

  lemma AppendLeader(pipes: seq<PipeCtx>, n: nat, groups: seq<seq<nat>>, i: nat, g: seq<nat>)
    requires i < n <= |pipes|
    requires LeadersLowest(pipes, n, groups)
    requires CoversBelow(pipes, n, groups, i)
    requires |g| >= 1 && g[0] == i
    ensures LeadersLowest(pipes, n, groups + [g])
  {
    var gs := groups + [g];
    assert gs[..|groups|] == groups;
    assert forall k | 0 <= k < |groups| :: gs[..k] == groups[..k];
  }

  lemma AppendSync(pipes: seq<PipeCtx>, n: nat, sync: (Stream, Stream) -> bool, groups: seq<seq<nat>>, i: nat, g: seq<nat>)
    requires i < n <= |pipes|
    requires MembersSync(pipes, sync, groups)
    requires IsGroupOf(pipes, n, sync, Covered(groups), i, g)
    ensures MembersSync(pipes, sync, groups + [g])
  {
  }

  lemma AppendMaximal(pipes: seq<PipeCtx>, n: nat, sync: (Stream, Stream) -> bool, groups: seq<seq<nat>>, i: nat, g: seq<nat>)
    requires i < n <= |pipes|
    requires Maximal(pipes, n, sync, groups)
    requires IsGroupOf(pipes, n, sync, Covered(groups), i, g)
    ensures Maximal(pipes, n, sync, groups + [g])
  {
    var gs := groups + [g];
    assert gs[..|groups|] == groups;
    assert forall k | 0 <= k < |groups| :: gs[..k] == groups[..k];
  }

  /** Skipping a slot that is unbound or already covered keeps the invariant, one slot further. */
  lemma SkipSlot(pipes: seq<PipeCtx>, n: nat, sync: (Stream, Stream) -> bool, groups: seq<seq<nat>>, i: nat)
    requires i < n <= |pipes|
    requires PartitionBelow(pipes, n, sync, groups, i)
    requires !(pipes[i].stream.Some? && i !in Covered(groups))
    ensures PartitionBelow(pipes, n, sync, groups, i + 1)
  {
  }

  /** `program_timing_sync` over the first `n` slots (`pool->pipe_count`). */
  method ProgramTimingSync(pipes: seq<PipeCtx>, n: nat, sync: (Stream, Stream) -> bool)
    returns (groups: seq<seq<nat>>, events: seq<Event>)
    requires n <= |pipes|
    ensures IsSyncPartition(pipes, n, sync, groups)
    ensures events == SyncEvents(groups)
  {
    var unsynced: seq<bool> := seq(n, x requires 0 <= x < n => pipes[x].stream.Some?);
    groups := [];
    events := [];
    var groupIndex := 0;
    var i := 0;
    while i < n
      invariant 0 <= i <= n
      invariant |unsynced| == n
      invariant forall x | 0 <= x < n :: unsynced[x] <==> (pipes[x].stream.Some? && x !in Covered(groups))
      invariant PartitionBelow(pipes, n, sync, groups, i)
      invariant events == SyncEvents(groups)
      invariant groupIndex == |events|
    {
      if unsynced[i] {
        var g;
        g, unsynced := CollectGroup(pipes, n, sync, unsynced, i, Covered(groups));
        AppendGroup(pipes, n, sync, groups, i, g);
        groups := groups + [g];
        if |g| > 1 {
          events := events + [EnableTimingSync(groupIndex, g)];
          groupIndex := groupIndex + 1;
        }
      } else {
        SkipSlot(pipes, n, sync, groups, i);
      }
      i := i + 1;
    }
  }
}

=== FILE: types.dfy ===
/**
 * The data model of the display core: streams, surfaces, targets, the
 * fixed-size pipe array of a validation context, and the context itself.
 *
 * Objects the driver compares by pointer (targets, streams, surfaces, sinks)
 * carry an `id`; two values denote the same object exactly when their ids agree.
 */
module DcTypes {
  import opened Wrappers
  import opened Ints

  /** Number of pipe slots in every validation context (`MAX_PIPES`). */
  const MaxPipes: nat := 6

  /** The timing fields of `dc_crtc_timing` that the core reads. */
  datatype Timing = Timing(
    hAddressable: U32,
    vAddressable: U32,
    hTotal: PosU32,
    vTotal: PosU32,
    pixClkKhz: PosU32)

  datatype Stream = Stream(id: nat, timing: Timing)

  datatype Surface = Surface(id: nat, visible: bool)

  /** A target: an ordered list of streams. */
  datatype Target = Target(id: nat, streams: seq<Stream>)

  /** `dc_target_status`: the surfaces attached to a committed target (`surface_count == |surfaces|`). */
  datatype TargetStatus = TargetStatus(surfaces: seq<Surface>)

  /**
   * One pipe slot: the stream and surface bound to it (or none), the slot
   * number `pipe_idx`, and the `top_pipe` link of split configurations.
   */
  datatype PipeCtx = PipeCtx(
    stream: Option<Stream>,
    surface: Option<Surface>,
    topPipe: Option<nat>,
    pipeIdx: nat)

  /** The part of `bw_results` the commit sequencing reads. */
  datatype BwResults = BwResults(dispclkKhz: nat, allDisplaysInSync: bool)

  /**
   * `validate_context`: the admitted targets in order, their statuses, the
   * pipe array and the bandwidth results.
   */
  datatype ValidateContext = ValidateContext(
    targets: seq<Target>,
    targetStatus: seq<TargetStatus>,
    pipes: seq<PipeCtx>,
    bw: BwResults)
  {
    /** Shape of a context: one status per target and one slot per pipe. */
    predicate Valid() {
      |targetStatus| == |targets| && |pipes| == MaxPipes
    }
  }

  /** A well-shaped validation context; every context the core holds or is handed has this shape. */
  type Ctx = c: ValidateContext | c.Valid()
    witness ValidateContext([], [], seq(MaxPipes, _ => ZeroPipe), BwResults(0, false))

  /** True when pipe slot `p` is bound to the stream with identity `s`. */
  predicate BoundTo(p: PipeCtx, s: Stream) {
    p.stream.Some? && p.stream.value.id == s.id
  }

  /** The streams of a list of targets, target by target, in order. */
  function AllStreams(targets: seq<Target>): (r: seq<Stream>)
    ensures |targets| == 0 ==> r == []
  {
    if |targets| == 0 then [] else targets[0].streams + AllStreams(targets[1..])
  }

  /** An all-zero pipe slot, as left by `memset`. */
  const ZeroPipe: PipeCtx := PipeCtx(None, None, None, 0)

  /** The context after `memset(..., 0, ...)`: no targets, every slot unbound, zero clocks. */
  function ZeroContext(): (c: Ctx)
    ensures |c.targets| == 0
    ensures forall j | 0 <= j < |c.pipes| :: c.pipes[j].stream.None? && c.pipes[j].pipeIdx == 0
    ensures c.bw.dispclkKhz == 0
  {
    ValidateContext([], [], seq(MaxPipes, _ => ZeroPipe), BwResults(0, false))
  }
}

=== FILE: wrappers.dfy ===
/** Optional values, used wherever the driver returns or stores a pointer that may be NULL. */
module Wrappers {

  datatype Option<+T> = None | Some(value: T) {

    /** Returns the value held in Some, or `default` for None. */
    function GetOr(default: T): T {
      match this
      case Some(v) => v
      case None => default
    }
  }
}
